=== FILE: README.md ===
# EASUN PI30 solar monitor — protocol core in Dafny

The monitor is a Home Assistant add-on. It polls an EASUN inverter over a serial line using the PI30 protocol and republishes what it reads over MQTT. This project models the part of `easun-solar/easun_monitor.py` that carries the protocol and the failure handling:

- **the checksum** (`Crc`). `calculate_crc` is CRC-16/XMODEM: polynomial 0x1021, most significant bit first, initial value 0, no final XOR.
  - The register is kept as sixteen booleans. The method `Crc.CalculateCrc` keeps the source's two nested loops.
  - `CrcReference` proves the byte loop equal to two independent definitions: a bit-serial register, and long division by x^16 + x^12 + x^5 + 1.
  - `CrcSteps` and `CrcVectors` compute two concrete values. One is the published check value 0x31C3 of `123456789`. The other is the QPIGS trailer 0xB7 0xA9.
- **framing** (`Framing`). `send_command` encodes a command in ASCII and appends the checksum and a carriage return. It then turns the bytes received back into text.
  - A reply that starts with `(` loses its first byte and its last three bytes. The rest is decoded as ASCII with undecodable bytes dropped.
  - A receiving-side parser of request frames inverts the request builder.
  - The de-framer inverts a device-side frame builder.
- **number syntax** (`Numbers`, `Tokens`). The model covers `str.split()`, `int()` and `float()` on the tokens of a status line, and `int()` on a float. `int()` of a string keeps CPython's default limit of 4300 digits. A fixed-point printer writes numbers as the device does, leading zeros included (`0229`, `000.0`), and these functions read its output back.
- **the status parser** (`Qpigs`). `parse_qpigs_response` splits the reply and reads sixteen numbers by position, each with `float()` or `int()`. It keeps token 16 as the status bits. It then derives:
  - the PV power, by the "closest to 85 W" heuristic;
  - the battery state and power;
  - three status flags.

  A reply with fewer than 17 tokens gives no record. So does a reply where some numeric token among the first sixteen does not parse.
- **connection supervision** (`Supervisor`).
  - `connect_serial` makes up to five attempts. Before each attempt it closes any previous handle. It sleeps between attempts, and it succeeds on the first probe that gets a non-empty reply.
  - The error counter of the main loop of `run` reconnects after five failures.

The serial port, the clock and the broker become parameters:
- the bytes a read collected;
- whether the port opened;
- whether a reconnect succeeded;
- the sequence of loop passes.

Sleeps appear only as marks on the attempts (`Try.waitedAfter`).

Behaviour of the code worth knowing:
- **Offline publishing.** Once the counter has reached five, `offline` is published again on every failing pass for as long as reconnects fail. It is not published once per outage (`Supervisor.OfflineRepublished`).
- **What the counter counts.** It counts every pass that raised as well as failed reads. A pass that raised never runs the threshold check itself (`Supervisor.RaisedSkipsThreshold`).
- **Reply checksum.** The checksum of a reply is never checked. The three trailing bytes are dropped by position (`Framing.TrailerIgnored`).

## Model

| member | source | states |
|---|---|---|
| Crc.Checksum | easun-solar/easun_monitor.py:127-138 | `calculate_crc` as a function: two bytes, both zero exactly when the register ends clear. Its value is fixed by `CalculateCrc`, `CrcFromIsSerial` and `ChecksumIsRemainder`. |
| Crc.CalculateCrc | easun-solar/easun_monitor.py:127-138 | The nested byte and bit loops return the two big-endian bytes of the CRC register after the whole message. Loop invariants tie each pass to the register the message defines. |
| Crc.RoundShape | easun-solar/easun_monitor.py:132-136 | One inner round is `(crc << 1) ^ 0x1021` when bit 15 is set and `crc << 1` otherwise, truncated to 16 bits. |
| Crc.CrcFromAppend | easun-solar/easun_monitor.py:129-137 | Feeding a concatenation is feeding the first part and then the second. The checksum is a left fold over the bytes. |
| Crc.ChecksumEmpty | easun-solar/easun_monitor.py:128-138 | The empty message has checksum 0x0000: initial value 0 and no final XOR. |
| Crc.FeedOwnBytes | easun-solar/easun_monitor.py:129-138 | Feeding a register its own two big-endian bytes clears it. |
| Crc.ChecksumResidue | easun-solar/easun_monitor.py:127-138 | A message followed by its own checksum has checksum zero. This is the residue property a receiver checks frames with. |
| Crc.PackUnpack | easun-solar/easun_monitor.py:138 | Splitting a byte into bits and packing them again gives the byte back. |
| Crc.UnpackPack | easun-solar/easun_monitor.py:138 | Packing eight bits into a byte and splitting it again gives the bits back. |
| CrcReference.StepIsSerial | easun-solar/easun_monitor.py:130-137 | One outer iteration (XOR the byte into the high half, eight rounds) equals eight steps of the bit-serial CRC register over the byte's bits, most significant bit first. |
| CrcReference.CrcFromIsSerial | easun-solar/easun_monitor.py:129-137 | The byte loop and the bit-serial register agree on every message. |
| CrcReference.DivisionAppend | easun-solar/easun_monitor.py:129-137 | Long division over a concatenation is division over the first part, then over the second. |
| CrcReference.ChecksumIsRemainder | easun-solar/easun_monitor.py:127-138 | The checksum is the remainder of the message times x^16, divided by x^16 + x^12 + x^5 + 1. |
| CrcVectors.CheckValue | easun-solar/easun_monitor.py:127-138 | The checksum of ASCII `123456789` is 0x31 0xC3, the published CRC-16/XMODEM check value. |
| CrcVectors.QpigsCheckValue | easun-solar/easun_monitor.py:127-138 | The checksum of ASCII `QPIGS` is 0xB7 0xA9. |
| Framing.AsciiEncode | easun-solar/easun_monitor.py:151 | `command.encode('ascii')` succeeds exactly on ASCII text. It gives one byte per character, equal to the character's code. |
| Framing.AsciiDecode | easun-solar/easun_monitor.py:176 | `decode('ascii', errors='ignore')` never lengthens the text and yields only ASCII. What it keeps is fixed by `AsciiDecodeKeepsAscii`. |
| Framing.AsciiDecodeAppend | easun-solar/easun_monitor.py:176 | Decoding a concatenation decodes each part and concatenates the texts. |
| Framing.AsciiDecodeByte | easun-solar/easun_monitor.py:176 | One byte decodes to its character when it is below 0x80, and to nothing otherwise. |
| Framing.AsciiBytes | easun-solar/easun_monitor.py:176 | The bytes below 0x80, in order. A reference filter that never lengthens, yields only ASCII bytes, and is the identity exactly on all-ASCII input. |
| Framing.DecodeCodes | easun-solar/easun_monitor.py:176 | For any bytes, mixed or not, the decoded text is character for character the bytes below 0x80, in order. |
| Framing.AsciiDecodeKeepsAscii | easun-solar/easun_monitor.py:176 | For any bytes, encoding the decoded text gives exactly the bytes below 0x80, in order: those are kept and every other byte is dropped. |
| Framing.AsciiDecodeKeeps | easun-solar/easun_monitor.py:176 | On ASCII bytes the decoder drops nothing, and encoding the text gives the bytes back. |
| Framing.AsciiEncodeDecode | easun-solar/easun_monitor.py:151 | Decoding the ASCII encoding of a text gives the text back. |
| Framing.AsciiDecodeEmpty | easun-solar/easun_monitor.py:176 | Decoding yields the empty text exactly when every byte is above 0x7F. |
| Framing.Frame | easun-solar/easun_monitor.py:152-153 | The frame is the encoded command, then the checksum of exactly that prefix, then a carriage return. |
| Framing.Request | easun-solar/easun_monitor.py:151-153 | A frame exists exactly for ASCII commands. It has the command's codes in front, their checksum after them, and a carriage return last. |
| Framing.QpigsRequest | easun-solar/easun_monitor.py:151-153 | The QPIGS request on the wire is `QPIGS`, 0xB7, 0xA9, CR. |
| Framing.RequestParses | easun-solar/easun_monitor.py:151-153 | The receiving-side parser accepts every request frame and recovers its command. |
| Framing.ParsedIsRequest | easun-solar/easun_monitor.py:151-153 | Every frame the receiving-side parser accepts is the request frame of the command it yields. |
| Framing.RequestResidue | easun-solar/easun_monitor.py:151-153 | A request frame without its carriage return has checksum zero. |
| Framing.Deframe | easun-solar/easun_monitor.py:170-176 | The result is `None` exactly when nothing was received. A reply starting with `(` of at least four bytes decodes the bytes between the `(` and the last three. A shorter one gives the empty text. Any other reply decodes whole. |
| Framing.DeframeResponse | easun-solar/easun_monitor.py:172-176 | De-framing `(`, an ASCII payload, its checksum and CR gives the payload back as text. |
| Framing.TrailerIgnored | easun-solar/easun_monitor.py:172-174 | The three trailing bytes are never examined. Any checksum, right or wrong, gives the same text. |
| Framing.UnframedPassesThrough | easun-solar/easun_monitor.py:172-176 | A reply without a leading `(` is not cut: its text is all of its bytes below 0x80, so an all-ASCII reply passes through whole, trailer included. |
| Framing.UnframedTrailer | easun-solar/easun_monitor.py:172-176 | An unframed reply ending in two checksum bytes and CR keeps the body's ASCII bytes, then each checksum byte only if it is below 0x80, then CR. With both checksum bytes above 0x7F (the QPIGS request's own are 0xB7 0xA9) the text is the body's ASCII bytes and CR. |
| Framing.NoResponseExactly | easun-solar/easun_monitor.py:170-180 | The text is falsy exactly when nothing arrived, or when every byte the de-framer keeps is above 0x7F. |
| Framing.SendCommand | easun-solar/easun_monitor.py:140-184 | The reply is present exactly when the port is open, the command is ASCII, the line did not raise and bytes arrived. It is then the de-framed bytes. |
| Tokens.Word | easun-solar/easun_monitor.py:189 | The longest whitespace-free prefix: a prefix, with no whitespace, followed by whitespace or the end. |
| Tokens.Split | easun-solar/easun_monitor.py:189 | `str.split()` yields only non-empty tokens without whitespace. |
| Tokens.SplitKeepsText | easun-solar/easun_monitor.py:189 | The tokens concatenated are the text with its whitespace removed: nothing is lost or reordered. |
| Tokens.SplitSkipsSpace | easun-solar/easun_monitor.py:189 | Leading whitespace does not change the split. |
| Tokens.SplitJoin | easun-solar/easun_monitor.py:189 | Splitting tokens joined by single spaces gives the tokens back. |
| Numbers.Value | easun-solar/easun_monitor.py:197-212 | A digit string of length k stands for a number below 10^k. |
| Numbers.ValueAppend | easun-solar/easun_monitor.py:197-212 | The value of a concatenation of digit strings is the first part's value shifted by the second part's length, plus the second part's value. |
| Numbers.LeadingZeros | easun-solar/easun_monitor.py:201-212 | Leading zeros do not change the value, as in `int('0229') == 229`. |
| Numbers.ZerosValue | easun-solar/easun_monitor.py:197-212 | A string of zeros has value 0, as in `0000`. |
| Numbers.ParseInt | easun-solar/easun_monitor.py:201-212 | `int()` succeeds only on non-empty tokens with one to 4300 digits after the sign, which is CPython's default limit for converting a decimal string; leading zeros count toward it. The result is non-negative unless the token starts with `-`. |
| Numbers.ParseFloat | easun-solar/easun_monitor.py:197-210 | `float()` succeeds only on non-empty tokens and is non-negative unless the token starts with `-`. |
| Numbers.IntIsFloat | easun-solar/easun_monitor.py:243-246 | Every `int()` token is a `float()` token of the same value, so `int(float(t))` is `int(t)`. |
| Numbers.Trunc | easun-solar/easun_monitor.py:227-232 | `int()` on a float rounds toward zero: the result lies within 1 of the argument, on the side of zero. |
| Numbers.ShowNat | easun-solar/easun_monitor.py:201-212 | The printed digits of a natural number read back as that number, and there are exactly `DigitCount` of them. |
| Numbers.WholeDigitsAtMost | easun-solar/easun_monitor.py:201-212 | A whole number below 10^k in magnitude, written with `pad` leading zeros, takes at most `pad + k` digits. So it stays within `int()`'s limit when `pad + k` does. |
| Numbers.Padded | easun-solar/easun_monitor.py:201-212 | Printing in exactly k digits with leading zeros reads back as the number. |
| Numbers.PaddedZero | easun-solar/easun_monitor.py:201-212 | Zero in exactly k digits is k zeros. |
| Numbers.WholePart | easun-solar/easun_monitor.py:201-212 | A whole part written with any number of leading zeros, as in `0229` or `000`, is a non-empty digit string that reads back as the number. Its length is the padding plus the number's `DigitCount`. |
| Numbers.ParseFixedPoint | easun-solar/easun_monitor.py:197-210 | `float()` reads a decimal with k decimals and any number of leading zeros, as in `000.0` or `54.40`, back as mantissa / 10^k. |
| Numbers.ParseFixedPointWhole | easun-solar/easun_monitor.py:201-212 | `int()` reads a signed whole number written with leading zeros, as in `0229` or `00000`, back exactly when it has at most 4300 digits, zeros included. With more digits it fails. |
| Numbers.ParseIntRejectsPoint | easun-solar/easun_monitor.py:201-212 | `int()` refuses any token containing a decimal point. |
| Numbers.FixedPointChars | easun-solar/easun_monitor.py:189 | A printed number is non-empty and holds only digits, `-` and `.`, with a point whenever there are decimals. |
| Numbers.NumberChars | easun-solar/easun_monitor.py:189 | A signed number made of a digit whole part and `k` decimal digits holds only digits, `-` and `.`, with the point right after the whole part. |
| Qpigs.ReadToken | easun-solar/easun_monitor.py:196-213 | A token read with `int()` gives a whole reading, and one read with `float()` gives a decimal reading. |
| Qpigs.ReadFields | easun-solar/easun_monitor.py:196-213 | Reading succeeds exactly when every numeric token parses, each reading being its token's value. Otherwise it names the first token that does not parse, all before it parsing. |
| Qpigs.ParseValues | easun-solar/easun_monitor.py:189-214 | `TooFewFields` exactly when fewer than 17 tokens. A record exactly when there are 17 or more and all 16 numbers parse, with token 16 kept as the status bits. Otherwise `Malformed` at the first bad token. |
| Qpigs.Parse | easun-solar/easun_monitor.py:186-278 | `TooFewFields` exactly when the reply splits into fewer than 17 tokens. A record exactly when there are 17 or more and the first sixteen all read. A record holds each token's value in its place and token 16 as the status bits, and it is consistent. |
| Qpigs.ParsedRecord | easun-solar/easun_monitor.py:189-271 | Each of the record's 16 readings is its token's value, and the record is consistent: PV power, battery state and flags agree with the readings. |
| Qpigs.ParseValuesRecord | easun-solar/easun_monitor.py:196-214 | A successful parse is the record of the first sixteen tokens' readings and token 16. |
| Qpigs.RecordOfFields | easun-solar/easun_monitor.py:196-212 | The record built from the readings of some tokens holds each token's value in its place. |
| Qpigs.Record | easun-solar/easun_monitor.py:196-271 | The dictionary keeps every reading in its place and token 16 as the status bits. Its PV power, battery state and flags agree with the readings (`Consistent`). |
| Qpigs.WholeTokenAsFloat | easun-solar/easun_monitor.py:243-246 | On a token `int()` accepts, `int(float(t))` is that `int()` reading, so the candidates can use the record's readings. |
| Qpigs.Distance | easun-solar/easun_monitor.py:250-251 | The key of `min` is the absolute distance from 85 W. |
| Qpigs.PvCandidates | easun-solar/easun_monitor.py:222-247 | Six candidates: the two products first, then the four other readings in order. |
| Qpigs.NearestIndex | easun-solar/easun_monitor.py:251 | `min` with a key picks a candidate no other beats, and every earlier candidate is strictly farther. |
| Qpigs.FirstNearestUnique | easun-solar/easun_monitor.py:251 | There is only one such candidate, so the choice is determined. |
| Qpigs.SamplePower | easun-solar/easun_monitor.py:227-251 | On the sample in the source's comments (248.2 V, raw current 16), the candidates are 397, 39, 229, 153, 4, 400, and 39 W is chosen. |
| Qpigs.Battery | easun-solar/easun_monitor.py:257-265 | Charging exactly when the charging current is positive. Discharging exactly when it is not positive and the discharge current is. Idle otherwise. Power is current times voltage, negated when discharging, and zero when idle. |
| Qpigs.BatteryPowerSign | easun-solar/easun_monitor.py:257-265 | With a positive battery voltage the sign of the power identifies the state, in both directions. |
| Qpigs.StatusFlags | easun-solar/easun_monitor.py:267-271 | The three flags are present exactly when the status bits have at least eight characters. |
| Qpigs.StatusBits | easun-solar/easun_monitor.py:267-271 | The device's status bits are a 0/1 string with a `1` exactly where a flag is set. |
| Qpigs.FlagsOfBits | easun-solar/easun_monitor.py:267-271 | Decoding status bits recovers bits 1 (battery mode), 2 (charging enabled) and 5 (load on). |
| Qpigs.ExtraTokensIgnored | easun-solar/easun_monitor.py:191-214 | Tokens after the seventeenth never change the outcome. |
| Qpigs.ExtraTextIgnored | easun-solar/easun_monitor.py:186-214 | A reply with extra trailing tokens parses to the same outcome. |
| Qpigs.ShortReply | easun-solar/easun_monitor.py:191-193 | A reply of fewer than 17 tokens gives no record, and the count is the number of tokens. |
| Qpigs.SameNumbersSameDerived | easun-solar/easun_monitor.py:196-265 | Replies agreeing on tokens 0 to 15 both parse once one does, with the same readings, PV power and battery state. |
| Qpigs.StatusBitsOnlyFlags | easun-solar/easun_monitor.py:213-271 | A reply that differs from a parsed one at most in token 16 parses too. Its readings, PV power and battery state stay as they were; its status bits are the new token 16 and its flags are decoded from them. |
| Qpigs.SameNumbersSameReadings | easun-solar/easun_monitor.py:196-212 | Replies agreeing on tokens 0 to 15 give records with the same readings. |
| Qpigs.SameReadingsSameDerived | easun-solar/easun_monitor.py:222-265 | Consistent records with the same readings have the same PV power and battery state. |
| Qpigs.ReadFieldsFromNumbers | easun-solar/easun_monitor.py:196-212 | Reading the numbers looks at tokens 0 to 15 only. |
| Qpigs.LineTokens | easun-solar/easun_monitor.py:189 | A device reply's tokens are the sixteen printed numbers, then the status bits, then anything else. |
| Qpigs.QuantityIsToken | easun-solar/easun_monitor.py:189 | A printed number contains no whitespace. |
| Qpigs.QuantityReads | easun-solar/easun_monitor.py:196-212 | `float()` reads a printed number, zero-padded or not, back as its value. `int()` does too for a number without decimals, when it has at most 4300 digits counting the leading zeros. With more digits `int()` fails. |
| Qpigs.ParseLine | easun-solar/easun_monitor.py:186-278 | A reply the device writes parses to a consistent record holding each number in its place and the status bits, whatever follows them. The numbers may be zero-padded and of any size. Those in `int()` positions must be whole and have at most 4300 digits, zeros included; `DecimalsInWholeSlot` and `LongTokenInWholeSlot` give the failure otherwise. |
| Qpigs.ZeroText | easun-solar/easun_monitor.py:235 | Zero as the device writes it is zeros only: `pad + 1` of them, then, with decimals, a point and `k` more. The sample's `000.0`, `00.0`, `00.00` and `00000` are of this form. |
| Qpigs.SampleText2 | easun-solar/easun_monitor.py:235 | Number 2 of the sample reply in the source's comments prints as `229.9`. |
| Qpigs.SampleText3 | easun-solar/easun_monitor.py:235 | Number 3 of the sample reply in the source's comments prints as `50.0`. |
| Qpigs.SampleText4 | easun-solar/easun_monitor.py:235 | Number 4 of the sample reply in the source's comments prints as `0229`, leading zeros included. |
| Qpigs.SampleText5 | easun-solar/easun_monitor.py:235 | Number 5 of the sample reply in the source's comments prints as `0153`, leading zeros included. |
| Qpigs.SampleText6 | easun-solar/easun_monitor.py:235 | Number 6 of the sample reply in the source's comments prints as `004`, leading zeros included. |
| Qpigs.SampleText7 | easun-solar/easun_monitor.py:235 | Number 7 of the sample reply in the source's comments prints as `400`. |
| Qpigs.SampleText8 | easun-solar/easun_monitor.py:235 | Number 8 of the sample reply in the source's comments prints as `54.40`. |
| Qpigs.SampleText9 | easun-solar/easun_monitor.py:235 | Number 9 of the sample reply in the source's comments prints as `016`, leading zeros included. |
| Qpigs.SampleText10 | easun-solar/easun_monitor.py:235 | Number 10 of the sample reply in the source's comments prints as `072`, leading zeros included. |
| Qpigs.SampleText11 | easun-solar/easun_monitor.py:235 | Number 11 of the sample reply in the source's comments prints as `0045`, leading zeros included. |
| Qpigs.SampleText12 | easun-solar/easun_monitor.py:235 | Number 12 of the sample reply in the source's comments prints as `0016`, leading zeros included. |
| Qpigs.SampleText13 | easun-solar/easun_monitor.py:235 | Number 13 of the sample reply in the source's comments prints as `248.2`. |
| Qpigs.SampleDecimals | easun-solar/easun_monitor.py:205-210 | The sample's `54.40`, `0016` and `248.2`, read with `float()`, are 54.4, 16.0 and 248.2. |
| Qpigs.SampleReading | easun-solar/easun_monitor.py:222-271 | Any reply with the sample's numbers in the positions the derived fields use, and fewer than eight status bits, parses to a record that is charging with power 16 × 54.4 = 870.4 W, PV power 39 W and no flags. |
| Qpigs.SampleFields | easun-solar/easun_monitor.py:196-212 | A record holding the sample's numbers has grid-side powers 229, 153, 4 and 400, battery 54.4 V and 16 A charging, no discharge current, and PV 16.0 and 248.2. |
| Qpigs.SampleDerived | easun-solar/easun_monitor.py:222-271 | A consistent record with those numbers is charging with 870.4 W, chooses 39 W as PV power, and has no flags when the status bits are shorter than eight. |
| Qpigs.SampleLine | easun-solar/easun_monitor.py:186-271 | The line that the sample's sixteen quantities and the bits `00010` print as parses to a record that is charging at 870.4 W with PV power 39 W. Its five status bits are too few for flags. The quantities print as the tokens of the sample reply in the comment at line 235, by `SampleText2` to `SampleText13` and `ZeroText`; the lemma does not state the joined text itself. |
| Qpigs.DecimalsInWholeSlot | easun-solar/easun_monitor.py:201-212 | A number with decimals in a position read by `int()` (as `int('54.40')`) discards the record, failing at that token or earlier. |
| Qpigs.LongTokenInWholeSlot | easun-solar/easun_monitor.py:201-212 | A whole number with more than 4300 digits, leading zeros included, in a position read by `int()` discards the record, failing at that token or earlier. |
| Supervisor.AnsweredCommand | easun-solar/easun_monitor.py:140-184 | On an open port an ASCII command gets a truthy reply exactly when bytes arrived that de-frame to non-empty text. |
| Supervisor.ProbeAnswered | easun-solar/easun_monitor.py:66-68 | The connection probe succeeds exactly when the QPIGS reply de-frames to non-empty text. |
| Supervisor.FirstAnswer | easun-solar/easun_monitor.py:49-80 | The first attempt whose probe was answered: none exactly when no attempt was answered, and every earlier attempt unanswered. |
| Supervisor.ConnectSerial | easun-solar/easun_monitor.py:44-86 | Success exactly when some attempt's probe is answered, after exactly that many attempts; otherwise all five attempts are made. Each attempt closes the old handle exactly when one was set. Each sleeps afterwards exactly when another attempt follows. The handle is set afterwards exactly when it was set on entry or some attempt opened the port. |
| Supervisor.FirstAnswerSkips | easun-solar/easun_monitor.py:49-80 | Unanswered attempts do not change which attempt answers first. |
| Supervisor.WaitsBetweenAttempts | easun-solar/easun_monitor.py:79-82 | The loop sleeps once fewer than it attempts, so at most four times. |
| Supervisor.Observe | easun-solar/easun_monitor.py:477-489 | A pass publishes data exactly when the reply is truthy and parses. It counts as unparsable exactly when the reply is truthy and the parser refuses it. It is an empty reply exactly when the reply is falsy. |
| Supervisor.Step | easun-solar/easun_monitor.py:475-502 | A record resets the counter and publishes it. A failure below five only counts. At five or more it publishes offline and reconnects, and on success it resets the counter and publishes online. A raised pass only counts. |
| Supervisor.Startup | easun-solar/easun_monitor.py:463-467 | Offline is published at start-up exactly when the first connection fails. |
| Supervisor.Run | easun-solar/easun_monitor.py:474-505 | Over a run of passes the counter rises by at most one per pass. It is zero after a pass that published data. At most three events are emitted per pass. |
| Supervisor.RunAppend | easun-solar/easun_monitor.py:474-505 | Running two stretches of passes is running the first, then the second from the counter it left. |
| Supervisor.CounterCountsFailures | easun-solar/easun_monitor.py:470-502 | While reconnects fail, the counter is the number of failed or raised passes since the last record. |
| Supervisor.QuietBelowThreshold | easun-solar/easun_monitor.py:484-498 | Fewer than five failed or raised passes in a row publish nothing and count each one. |
| Supervisor.OfflineRepublished | easun-solar/easun_monitor.py:492-498 | Past the threshold, every failed pass republishes offline and reconnects while the reconnects fail. |
| Supervisor.RaisedSkipsThreshold | easun-solar/easun_monitor.py:500-502 | Raised passes only count, however high the counter gets. They never publish or reconnect. |
| Supervisor.OnlineOnlyAfterReconnect | easun-solar/easun_monitor.py:492-498 | Online is published exactly by a failed pass at the threshold whose reconnect succeeds, and then the counter is zero. |

## Left out

- Serial I/O:
  - the read loop of `send_command` (the 3-second deadline, `in_waiting`, stopping at CR);
  - `reset_input_buffer` and the write.

  The bytes a read collected are a parameter (`None` when the line raised).
- MQTT: connecting, discovery messages and `publish_data`. Publishing is an event in the run model and is otherwise not part of this model.
- Environment configuration, logging, the `KeyboardInterrupt` handler and the cleanup in `finally`.
- Sleeps: modelled only as the `waitedAfter` marks of `connect_serial` and not at all in `run`.
- Numbers.ParseFloat: follows exact decimal arithmetic instead of IEEE-754 doubles, so rounding in `float()` and in the PV products is not modelled, and neither is overflow.
- Numbers.ParseFloat: accepts only an optional sign, digits and one optional point. Python also accepts exponents, `inf`, `nan`, underscores, surrounding whitespace and non-ASCII digits. None of these can occur within a whitespace-free numeric token the device writes.
- Numbers.ParseInt: accepts only an optional sign and ASCII digits. Python also accepts underscores and non-ASCII digits.
- Numbers.ParseInt: the digit limit is fixed at CPython's default of 4300. Changing it with `sys.set_int_max_str_digits` or the `PYTHONINTMAXSTRDIGITS` environment variable is not modelled, and neither is an interpreter older than 3.11, which has no limit.
- Qpigs.Battery: an idle battery's power is the real 0.0, while the source stores the integer 0. The two compare equal.
- Qpigs.Battery: the power is an exact product. A current of about 1.8 × 10^308 or more, where the source raises `OverflowError` and the parser returns `None`, is covered under `Qpigs.ParseValues` below.
- Qpigs.ParseValues: the `values[16] if len(values) > 16 else ''` fallback is unreachable after the length check and is not modelled.
- Qpigs.ParseValues: floating-point overflow is not modelled.
  - In the source, `float()` gives infinity for a token whose value is at least 2^1024 − 2^970 in magnitude, about 1.8 × 10^308. What decides this is the value, not the number of digits: `1` followed by 308 zeros is finite, and 400 zeros followed by `5` reads as 5.0.
  - A PV product of two finite readings whose double exceeds that range is infinite as well.
  - `int()` of an infinite PV product, or of `float(values[4])` for such a whole token, raises `OverflowError` (lines 228, 232, 243-246).
  - A whole battery current token of at least that magnitude makes the battery power product raise `OverflowError`, because the integer cannot be converted to a float (lines 259 and 262).
  - A PV current of 0 times an infinite voltage is NaN, and `int()` raises `ValueError`.
  - In these cases the source's catch-all returns `None`, while the model, with exact reals and unbounded integers, returns a record.
- Supervisor.ConnectSerial: takes exactly five attempt outcomes. Outcomes of attempts it never reaches are ignored.
- Supervisor.ConnectSerial: does not model a `close()` that raises.
- Supervisor.Step: an exception raised before the counter is updated (by `publish_data` at line 482, say) is one `Raised` pass that changes only the counter.
- Supervisor.Step: an exception from publishing `offline` or `online` in the threshold branch (lines 494 and 498) is not modelled. In the source the counter then rises by two in one pass, or ends at 1 after `offline` was published and the reconnect succeeded.
- Supervisor.Step: the reconnect inside the threshold branch is a parameter of the pass, not a nested run of `ConnectSerial`.

=== FILE: common.dfy ===
/** Shared vocabulary of the model: optional values, results and bytes. */
module Common {

  /** One octet on the serial line. */
  type byte = x: int | 0 <= x < 256

  /** A value that may be absent (Python's `None`). */
  datatype Option<+T> = None | Some(value: T)

  /** A value or the reason it could not be produced. */
  datatype Result<+T, +E> = Ok(value: T) | Err(error: E) {

    /** Forgets the reason of a failure, as the source does when it returns `None`. */
    function ToOption(): (o: Option<T>)
      ensures o.Some? <==> Ok?
      ensures Ok? ==> o.value == value
    {
      match this
      case Ok(v) => Some(v)
      case Err(_) => None
    }
  }

  /** The ASCII carriage return that terminates every frame. */
  const CR: byte := 0x0D

  /** The ASCII open parenthesis that starts a device response. */
  const OpenParen: byte := 0x28

  /** Python's normalisation of a possibly negative slice bound against a length `n`. */
  function SliceBound(i: int, n: nat): (k: nat)
    ensures k <= n
    ensures 0 <= i <= n ==> k == i
    ensures -(n as int) <= i < 0 ==> k == (n as int) + i
    ensures i < -(n as int) ==> k == 0
    ensures n < i ==> k == n
  {
    if i < 0 then (if (n as int) + i < 0 then 0 else (n as int) + i)
    else if i > n then n
    else i
  }

  /** Python's `s[i:j]` with a step of one: bounds are normalised, and an empty slice results when they cross. */
  function PySlice<T>(s: seq<T>, i: int, j: int): (r: seq<T>)
    ensures SliceBound(i, |s|) <= SliceBound(j, |s|) ==> r == s[SliceBound(i, |s|)..SliceBound(j, |s|)]
    ensures SliceBound(j, |s|) < SliceBound(i, |s|) ==> r == []
  {
    var a := SliceBound(i, |s|);
    var b := SliceBound(j, |s|);
    if a <= b then s[a..b] else []
  }

  /** The character a byte stands for in ASCII (and Latin-1). */
  function ByteChar(b: byte): (c: char)
    ensures c as int == b
  {
    b as char
  }
}

=== FILE: crc.dfy ===
/** The PI30 checksum: CRC-16/XMODEM (polynomial 0x1021, MSB first, initial value 0,
    no reflection, no final XOR), computed byte by byte with an eight-round shift loop.

    The 16-bit register is kept as its sixteen bits, most significant first, so that
    every fact about the checksum is a fact about booleans. */
module Crc {
  import opened Common

  /** The eight bits of a byte, most significant (`x7`) first. */
  datatype Bits8 = Bits8(x7: bool, x6: bool, x5: bool, x4: bool, x3: bool, x2: bool, x1: bool, x0: bool)

  const NoBits: Bits8 := Bits8(false, false, false, false, false, false, false, false)

  /** The weight `w` when the bit is set, 0 otherwise. */
  function Bit(x: bool, w: int): int {
    if x then w else 0
  }

  /** Compares a remainder with the weight `w`: whether that bit is set, and what is left below it. */
  function Take(r: int, w: int): (bool, int) {
    if r >= w then (true, r - w) else (false, r)
  }

  /** The bits of a byte, read from the top. */
  function Unpack(b: byte): Bits8 {
    var (x7, r6) := Take(b, 0x80);
    var (x6, r5) := Take(r6, 0x40);
    var (x5, r4) := Take(r5, 0x20);
    var (x4, r3) := Take(r4, 0x10);
    var (x3, r2) := Take(r3, 0x08);
    var (x2, r1) := Take(r2, 0x04);
    var (x1, r0) := Take(r1, 0x02);
    Bits8(x7, x6, x5, x4, x3, x2, x1, r0 == 1)
  }

  /** The value of the bits of `p` from bit `k` down, for `k` from 0 to 6. */
  function Low0(p: Bits8): int { Bit(p.x0, 0x01) }
  function Low1(p: Bits8): int { Bit(p.x1, 0x02) + Low0(p) }
  function Low2(p: Bits8): int { Bit(p.x2, 0x04) + Low1(p) }
  function Low3(p: Bits8): int { Bit(p.x3, 0x08) + Low2(p) }
  function Low4(p: Bits8): int { Bit(p.x4, 0x10) + Low3(p) }
  function Low5(p: Bits8): int { Bit(p.x5, 0x20) + Low4(p) }
  function Low6(p: Bits8): int { Bit(p.x6, 0x40) + Low5(p) }

  /** The byte whose bits are `p`. */
  function Pack(p: Bits8): byte {
    LowBounds(p);
    Bit(p.x7, 0x80) + Low6(p)
  }

  lemma AddBit(x: bool, w: int, t: int)
    requires 0 <= t < w
    ensures 0 <= Bit(x, w) + t < 2 * w
  {
  }

  lemma TakeBit(x: bool, w: int, t: int)
    requires 0 <= t < w
    ensures Take(Bit(x, w) + t, w) == (x, t)
  {
  }

  lemma TakeSplit(r: int, w: int)
    ensures Bit(Take(r, w).0, w) + Take(r, w).1 == r
  {
  }

  /** The bits below bit `k + 1` are worth less than bit `k + 1`. */
  lemma LowBounds(p: Bits8)
    ensures 0 <= Low0(p) < 0x02 && 0 <= Low1(p) < 0x04 && 0 <= Low2(p) < 0x08 && 0 <= Low3(p) < 0x10
    ensures 0 <= Low4(p) < 0x20 && 0 <= Low5(p) < 0x40 && 0 <= Low6(p) < 0x80
  {
    AddBit(p.x1, 0x02, Low0(p));
    AddBit(p.x2, 0x04, Low1(p));
    AddBit(p.x3, 0x08, Low2(p));
    AddBit(p.x4, 0x10, Low3(p));
    AddBit(p.x5, 0x20, Low4(p));
    AddBit(p.x6, 0x40, Low5(p));
  }

  /** Each step of `Unpack` on a packed byte recovers one bit and leaves the bits below. */
  lemma PackTakes(p: Bits8)
    ensures Take(Pack(p), 0x80) == (p.x7, Low6(p))
    ensures Take(Low6(p), 0x40) == (p.x6, Low5(p))
    ensures Take(Low5(p), 0x20) == (p.x5, Low4(p))
    ensures Take(Low4(p), 0x10) == (p.x4, Low3(p))
    ensures Take(Low3(p), 0x08) == (p.x3, Low2(p))
    ensures Take(Low2(p), 0x04) == (p.x2, Low1(p))
    ensures Take(Low1(p), 0x02) == (p.x1, Low0(p))
  {
    LowBounds(p);
    TakeBit(p.x7, 0x80, Low6(p));
    TakeBit(p.x6, 0x40, Low5(p));
    TakeBit(p.x5, 0x20, Low4(p));
    TakeBit(p.x4, 0x10, Low3(p));
    TakeBit(p.x3, 0x08, Low2(p));
    TakeBit(p.x2, 0x04, Low1(p));
    TakeBit(p.x1, 0x02, Low0(p));
  }

  /** `Unpack` in terms of the results of its seven steps. */
  lemma UnpackSteps(b: byte, x7: bool, x6: bool, x5: bool, x4: bool, x3: bool, x2: bool, x1: bool,
                    r6: int, r5: int, r4: int, r3: int, r2: int, r1: int, r0: int)
    requires Take(b, 0x80) == (x7, r6) && Take(r6, 0x40) == (x6, r5) && Take(r5, 0x20) == (x5, r4)
    requires Take(r4, 0x10) == (x4, r3) && Take(r3, 0x08) == (x3, r2) && Take(r2, 0x04) == (x2, r1)
    requires Take(r1, 0x02) == (x1, r0)
    ensures Unpack(b) == Bits8(x7, x6, x5, x4, x3, x2, x1, r0 == 1)
  {
  }

  /** Packing the bits of a byte gives the byte back. */
  lemma PackUnpack(b: byte)
    ensures Pack(Unpack(b)) == b
  {
    var (x7, r6) := Take(b, 0x80);
    var (x6, r5) := Take(r6, 0x40);
    var (x5, r4) := Take(r5, 0x20);
    var (x4, r3) := Take(r4, 0x10);
    var (x3, r2) := Take(r3, 0x08);
    var (x2, r1) := Take(r2, 0x04);
    var (x1, r0) := Take(r1, 0x02);
    TakeSplit(b, 0x80);
    TakeSplit(r6, 0x40);
    TakeSplit(r5, 0x20);
    TakeSplit(r4, 0x10);
    TakeSplit(r3, 0x08);
    TakeSplit(r2, 0x04);
    TakeSplit(r1, 0x02);
    assert 0 <= r0 < 2;
    assert Unpack(b) == Bits8(x7, x6, x5, x4, x3, x2, x1, r0 == 1);
  }

  /** Unpacking a packed byte gives its bits back. */
  lemma UnpackPack(p: Bits8)
    ensures Unpack(Pack(p)) == p
  {
    PackTakes(p);
    UnpackSteps(Pack(p), p.x7, p.x6, p.x5, p.x4, p.x3, p.x2, p.x1,
                Low6(p), Low5(p), Low4(p), Low3(p), Low2(p), Low1(p), Low0(p));
  }

  function XorBits(a: Bits8, b: Bits8): Bits8 {
    Bits8(a.x7 != b.x7, a.x6 != b.x6, a.x5 != b.x5, a.x4 != b.x4,
          a.x3 != b.x3, a.x2 != b.x2, a.x1 != b.x1, a.x0 != b.x0)
  }

  /** The 16-bit CRC register: `hi` holds bits 15..8, `lo` bits 7..0. */
  datatype Reg = Reg(hi: Bits8, lo: Bits8)

  const Zero: Reg := Reg(NoBits, NoBits)

  /** The generator polynomial without its implicit x^16 term: 0x1021 (bits 12, 5 and 0). */
  const Poly: Reg := Reg(Bits8(false, false, false, true, false, false, false, false),
                         Bits8(false, false, true, false, false, false, false, true))

  function XorReg(a: Reg, b: Reg): Reg {
    Reg(XorBits(a.hi, b.hi), XorBits(a.lo, b.lo))
  }

  /** Shift left by one within 16 bits: bit 15 falls off (the source's `& 0xFFFF`), bit 0 becomes 0. */
  function Shl(r: Reg): Reg {
    Reg(Bits8(r.hi.x6, r.hi.x5, r.hi.x4, r.hi.x3, r.hi.x2, r.hi.x1, r.hi.x0, r.lo.x7),
        Bits8(r.lo.x6, r.lo.x5, r.lo.x4, r.lo.x3, r.lo.x2, r.lo.x1, r.lo.x0, false))
  }

  /** Shift left by one within 16 bits, `inb` entering at bit 0, and XOR the polynomial
      (bits 12, 5 and 0) in when `fold` holds. Every shift register below is one of these. */
  function ShiftIn(r: Reg, inb: bool, fold: bool): Reg {
    Reg(Bits8(r.hi.x6, r.hi.x5, r.hi.x4, r.hi.x3 != fold, r.hi.x2, r.hi.x1, r.hi.x0, r.lo.x7),
        Bits8(r.lo.x6, r.lo.x5, r.lo.x4 != fold, r.lo.x3, r.lo.x2, r.lo.x1, r.lo.x0, inb != fold))
  }

  /** One round of the inner loop: the polynomial is folded in when bit 15 falls off. */
  function Round(r: Reg): Reg {
    ShiftIn(r, false, r.hi.x7)
  }

  /** The round is the source's `(crc << 1) ^ 0x1021` when bit 15 is set and `crc << 1` otherwise,
      both truncated to 16 bits. */
  lemma RoundShape(r: Reg)
    ensures Round(r) == (if r.hi.x7 then XorReg(Shl(r), Poly) else Shl(r))
  {
  }

  /** `n` rounds of the inner loop. */
  function Rounds(r: Reg, n: nat): Reg
    decreases n
  {
    if n == 0 then r else Rounds(Round(r), n - 1)
  }

  /** `crc ^= byte << 8`: the byte's bits are XORed into the high half. */
  function Inject(r: Reg, p: Bits8): Reg {
    Reg(XorBits(r.hi, p), r.lo)
  }

  /** One iteration of the outer loop. */
  function Step(r: Reg, b: byte): Reg {
    Rounds(Inject(r, Unpack(b)), 8)
  }

  /** The register after feeding `data`, one byte at a time, to a register holding `r`. */
  function CrcFrom(r: Reg, data: seq<byte>): Reg
    decreases |data|
  {
    if |data| == 0 then r else CrcFrom(Step(r, data[0]), data[1..])
  }

  /** `crc.to_bytes(2, 'big')`: the high byte first. */
  function RegBytes(r: Reg): (bs: seq<byte>)
    ensures |bs| == 2
    ensures Unpack(bs[0]) == r.hi && Unpack(bs[1]) == r.lo
  {
    UnpackPack(r.hi);
    UnpackPack(r.lo);
    [Pack(r.hi), Pack(r.lo)]
  }

  /** The checksum of `data` as the two bytes appended to a frame: both bytes are zero
      exactly when the register ends clear. */
  function Checksum(data: seq<byte>): (cs: seq<byte>)
    ensures |cs| == 2
    ensures cs == [0, 0] <==> CrcFrom(Zero, data) == Zero
  {
    var r := CrcFrom(Zero, data);
    PackUnpack(0);
    assert Unpack(0) == NoBits;
    RegBytes(r)
  }

  /** `calculate_crc`, written as the source's two nested loops over the register. */
  method CalculateCrc(data: seq<byte>) returns (crc: seq<byte>)
    ensures |crc| == 2
    ensures crc == Checksum(data)
  {
    var r := Zero;
    var i := 0;
    while i < |data|
      invariant 0 <= i <= |data|
      invariant CrcFrom(r, data[i..]) == CrcFrom(Zero, data)
    {
      ghost var next := Step(r, data[i]);
      r := Inject(r, Unpack(data[i]));
      var k := 0;
      while k < 8
        invariant 0 <= k <= 8
        invariant Rounds(r, 8 - k) == next
      {
        RoundShape(r);
        if r.hi.x7 {
          r := XorReg(Shl(r), Poly);
        } else {
          r := Shl(r);
        }
        k := k + 1;
      }
      assert data[i..][1..] == data[i + 1..];
      i := i + 1;
    }
    crc := RegBytes(r);
  }

  /** Feeding a concatenation is feeding the first part, then the second. */
  lemma {:induction false} CrcFromAppend(r: Reg, a: seq<byte>, b: seq<byte>)
    ensures CrcFrom(r, a + b) == CrcFrom(CrcFrom(r, a), b)
    decreases |a|
  {
    if |a| == 0 {
      assert a + b == b;
    } else {
      assert (a + b)[1..] == a[1..] + b;
      CrcFromAppend(Step(r, a[0]), a[1..], b);
    }
  }

  /** The checksum of the empty message is zero: the register starts at 0 and has no final XOR. */
  lemma ChecksumEmpty()
    ensures Checksum([]) == [0, 0]
  {
    PackUnpack(0);
  }

  /** With a clear high half, eight rounds only move the low half up. */
  lemma RoundsClearHigh(p: Bits8)
    ensures Rounds(Reg(NoBits, p), 8) == Reg(p, NoBits)
  {
  }

  /** Feeding a register its own two bytes clears it. */
  lemma FeedOwnBytes(r: Reg)
    ensures CrcFrom(r, RegBytes(r)) == Zero
  {
    var bs := RegBytes(r);
    assert Inject(r, Unpack(bs[0])) == Reg(NoBits, r.lo);
    RoundsClearHigh(r.lo);
    var mid := Reg(r.lo, NoBits);
    assert Step(r, bs[0]) == mid;
    assert Inject(mid, Unpack(bs[1])) == Zero;
    RoundsClearHigh(NoBits);
    assert Step(mid, bs[1]) == Zero;
    assert CrcFrom(mid, bs[1..]) == Zero;
  }

  /** The residue property: a message followed by its own checksum has checksum zero,
      which is how a receiver can check a frame. */
  lemma ChecksumResidue(data: seq<byte>)
    ensures Checksum(data + Checksum(data)) == [0, 0]
  {
    CrcFromAppend(Zero, data, Checksum(data));
    FeedOwnBytes(CrcFrom(Zero, data));
    ChecksumEmpty();
  }
}

=== FILE: crc_reference.dfy ===
/** Two independent descriptions of CRC-16/XMODEM, and the proof that the byte-wise
    register loop of `calculate_crc` computes both:
    - the bit-serial register, which takes the message one bit at a time;
    - polynomial long division, which shifts the message followed by sixteen zero bits
      through the register and keeps the remainder modulo x^16 + x^12 + x^5 + 1. */
module CrcReference {
  import opened Common
  import opened Crc

  /** The bits of a byte as a list, most significant first. */
  function BitList(p: Bits8): (bits: seq<bool>)
    ensures |bits| == 8
    ensures bits[0] == p.x7 && bits[7] == p.x0
  {
    [p.x7, p.x6, p.x5, p.x4, p.x3, p.x2, p.x1, p.x0]
  }

  /** The message as a bit stream: bytes in order, each most significant bit first. */
  function MessageBits(data: seq<byte>): (bits: seq<bool>)
    ensures |bits| == 8 * |data|
  {
    if |data| == 0 then [] else BitList(Unpack(data[0])) + MessageBits(data[1..])
  }

  /** Bit-serial CRC: the incoming bit is compared with bit 15 and the polynomial
      is folded in when they differ. */
  function SerialBit(r: Reg, m: bool): Reg {
    ShiftIn(r, false, r.hi.x7 != m)
  }

  function Serial(r: Reg, bits: seq<bool>): Reg
    decreases |bits|
  {
    if |bits| == 0 then r else Serial(SerialBit(r, bits[0]), bits[1..])
  }

  /** Long division: the incoming bit is shifted into bit 0 and the polynomial is
      subtracted whenever the bit shifted out of bit 15 was set. */
  function DivisionBit(r: Reg, m: bool): Reg {
    ShiftIn(r, m, r.hi.x7)
  }

  function Division(r: Reg, bits: seq<bool>): Reg
    decreases |bits|
  {
    if |bits| == 0 then r else Division(DivisionBit(r, bits[0]), bits[1..])
  }

  /** The remainder of the message times x^16 divided by the generator. */
  function Remainder(data: seq<byte>): Reg {
    Division(Zero, MessageBits(data) + seq(16, _ => false))
  }

  // ---- the byte loop is the bit-serial register --------------------------------

  function ShiftBits(p: Bits8): Bits8 {
    Bits8(p.x6, p.x5, p.x4, p.x3, p.x2, p.x1, p.x0, false)
  }

  function ShiftBitsN(p: Bits8, n: nat): Bits8
    decreases n
  {
    if n == 0 then p else ShiftBitsN(ShiftBits(p), n - 1)
  }

  /** A round on a register with pending message bits XORed into its high half is a
      serial step on the leading pending bit; the other pending bits move up. */
  lemma RoundInject(r: Reg, p: Bits8)
    ensures Round(Inject(r, p)) == Inject(SerialBit(r, p.x7), ShiftBits(p))
  {
  }

  lemma BitListShift(p: Bits8, n: nat)
    requires n < 8
    ensures BitList(ShiftBits(p))[..n] == BitList(p)[1..n + 1]
  {
  }

  lemma {:induction false} RoundsInject(r: Reg, p: Bits8, n: nat)
    requires n <= 8
    ensures Rounds(Inject(r, p), n) == Inject(Serial(r, BitList(p)[..n]), ShiftBitsN(p, n))
    decreases n
  {
    if n > 0 {
      RoundInject(r, p);
      RoundsInject(SerialBit(r, p.x7), ShiftBits(p), n - 1);
      BitListShift(p, n - 1);
      var bits := BitList(p)[..n];
      assert bits[0] == p.x7;
      assert bits[1..] == BitList(ShiftBits(p))[..n - 1];
    }
  }

  lemma InjectNothing(r: Reg)
    ensures Inject(r, NoBits) == r
  {
  }

  /** One outer-loop iteration is eight serial steps over the byte's bits. */
  lemma StepIsSerial(r: Reg, b: byte)
    ensures Step(r, b) == Serial(r, BitList(Unpack(b)))
  {
    var p := Unpack(b);
    RoundsInject(r, p, 8);
    assert ShiftBitsN(p, 8) == NoBits;
    InjectNothing(Serial(r, BitList(p)));
    assert BitList(p)[..8] == BitList(p);
  }

  lemma {:induction false} SerialAppend(r: Reg, a: seq<bool>, b: seq<bool>)
    ensures Serial(r, a + b) == Serial(Serial(r, a), b)
    decreases |a|
  {
    if |a| == 0 {
      assert a + b == b;
    } else {
      assert (a + b)[1..] == a[1..] + b;
      SerialAppend(SerialBit(r, a[0]), a[1..], b);
    }
  }

  /** The byte-wise loop and the bit-serial register agree on every message. */
  lemma {:induction false} CrcFromIsSerial(r: Reg, data: seq<byte>)
    ensures CrcFrom(r, data) == Serial(r, MessageBits(data))
    decreases |data|
  {
    if |data| > 0 {
      StepIsSerial(r, data[0]);
      CrcFromIsSerial(Step(r, data[0]), data[1..]);
      SerialAppend(r, BitList(Unpack(data[0])), MessageBits(data[1..]));
    }
  }

  // ---- the bit-serial register is long division --------------------------------

  /** Sixteen division steps with zero input bits. */
  function Flush(r: Reg): Reg {
    Rounds(r, 16)
  }

  lemma RoundLinear(a: Reg, b: Reg)
    ensures Round(XorReg(a, b)) == XorReg(Round(a), Round(b))
  {
  }

  lemma {:induction false} RoundsLinear(a: Reg, b: Reg, n: nat)
    ensures Rounds(XorReg(a, b), n) == XorReg(Rounds(a, n), Rounds(b, n))
    decreases n
  {
    if n > 0 {
      RoundLinear(a, b);
      RoundsLinear(Round(a), Round(b), n - 1);
    }
  }

  lemma {:induction false} RoundsRound(a: Reg, n: nat)
    ensures Rounds(Round(a), n) == Round(Rounds(a, n))
    decreases n
  {
    if n > 0 {
      RoundsRound(Round(a), n - 1);
    }
  }

  /** The register holding only the input bit `m`, at position 0. */
  function BitIn(m: bool): Reg {
    Reg(NoBits, Bits8(false, false, false, false, false, false, false, m))
  }

  /** The polynomial when `m` holds, zero otherwise. */
  function PolyIf(m: bool): Reg {
    Reg(Bits8(false, false, false, m, false, false, false, false),
        Bits8(false, false, m, false, false, false, false, m))
  }

  /** x^16 reduces to the polynomial: sixteen rounds move a bit from position 0 to 16. */
  lemma FlushBitIn(m: bool)
    ensures Flush(BitIn(m)) == PolyIf(m)
  {
    if m {
      var r8 := Reg(Bits8(false, false, false, false, false, false, false, true), NoBits);
      assert Rounds(BitIn(m), 8) == r8;
      assert Rounds(r8, 8) == PolyIf(m);
      RoundsAdd(BitIn(m), 8, 8);
    } else {
      RoundsZero(16);
    }
  }

  lemma {:induction false} RoundsAdd(r: Reg, m: nat, n: nat)
    ensures Rounds(r, m + n) == Rounds(Rounds(r, m), n)
    decreases m
  {
    if m > 0 {
      RoundsAdd(Round(r), m - 1, n);
    }
  }

  lemma {:induction false} RoundsZero(n: nat)
    ensures Rounds(Zero, n) == Zero
    decreases n
  {
    if n > 0 {
      assert Round(Zero) == Zero;
      RoundsZero(n - 1);
    }
  }

  lemma DivisionBitSplit(a: Reg, m: bool)
    ensures DivisionBit(a, m) == XorReg(Round(a), BitIn(m))
  {
  }

  lemma SerialBitSplit(f: Reg, m: bool)
    ensures SerialBit(f, m) == XorReg(Round(f), PolyIf(m))
  {
  }

  /** Flushing commutes with the input bit: dividing one more bit and then flushing is
      a serial step on the flushed register. */
  lemma FlushDivisionBit(a: Reg, m: bool)
    ensures Flush(DivisionBit(a, m)) == SerialBit(Flush(a), m)
  {
    DivisionBitSplit(a, m);
    RoundsLinear(Round(a), BitIn(m), 16);
    RoundsRound(a, 16);
    FlushBitIn(m);
    SerialBitSplit(Flush(a), m);
  }

  lemma {:induction false} FlushDivision(a: Reg, bits: seq<bool>)
    ensures Flush(Division(a, bits)) == Serial(Flush(a), bits)
    decreases |bits|
  {
    if |bits| > 0 {
      FlushDivisionBit(a, bits[0]);
      FlushDivision(DivisionBit(a, bits[0]), bits[1..]);
    }
  }

  lemma {:induction false} DivisionZeros(a: Reg, n: nat)
    ensures Division(a, seq(n, _ => false)) == Rounds(a, n)
    decreases n
  {
    if n > 0 {
      assert DivisionBit(a, false) == Round(a);
      assert seq(n, _ => false)[1..] == seq(n - 1, _ => false);
      DivisionZeros(Round(a), n - 1);
    }
  }

  lemma {:induction false} DivisionAppend(r: Reg, a: seq<bool>, b: seq<bool>)
    ensures Division(r, a + b) == Division(Division(r, a), b)
    decreases |a|
  {
    if |a| == 0 {
      assert a + b == b;
    } else {
      assert (a + b)[1..] == a[1..] + b;
      DivisionAppend(DivisionBit(r, a[0]), a[1..], b);
    }
  }

  /** The checksum is the remainder of the message times x^16 modulo the generator. */
  lemma ChecksumIsRemainder(data: seq<byte>)
    ensures Checksum(data) == RegBytes(Remainder(data))
  {
    var bits := MessageBits(data);
    CrcFromIsSerial(Zero, data);
    RoundsZero(16);
    FlushDivision(Zero, bits);
    DivisionAppend(Zero, bits, seq(16, _ => false));
    DivisionZeros(Division(Zero, bits), 16);
  }
}

=== FILE: crc_steps.dfy ===
/** Single outer-loop iterations on concrete registers: every intermediate register of
    the CRC-16/XMODEM check value and of the checksum of the QPIGS command. */
module CrcSteps {
  import opened Common
  import opened Crc

  function RegOf(hi: byte, lo: byte): Reg {
    Reg(Unpack(hi), Unpack(lo))
  }

  /** The two bytes of a register built from two bytes are those bytes. */
  lemma RegBytesOf(hi: byte, lo: byte)
    ensures RegBytes(RegOf(hi, lo)) == [hi, lo]
  {
    PackUnpack(hi);
    PackUnpack(lo);
  }

  // One outer-loop iteration at a time, with the register after each byte.

  lemma CheckStep1()
    ensures Step(RegOf(0x00, 0x00), 0x31) == RegOf(0x26, 0x72)
  {
  }

  lemma CheckStep2()
    ensures Step(RegOf(0x26, 0x72), 0x32) == RegOf(0x20, 0xB5)
  {
  }

  lemma CheckStep3()
    ensures Step(RegOf(0x20, 0xB5), 0x33) == RegOf(0x97, 0x52)
  {
  }

  lemma CheckStep4()
    ensures Step(RegOf(0x97, 0x52), 0x34) == RegOf(0xD7, 0x89)
  {
  }

  lemma CheckStep5()
    ensures Step(RegOf(0xD7, 0x89), 0x35) == RegOf(0x54, 0x6C)
  {
  }

  lemma CheckStep6()
    ensures Step(RegOf(0x54, 0x6C), 0x36) == RegOf(0x20, 0xE4)
  {
  }

  lemma CheckStep7()
    ensures Step(RegOf(0x20, 0xE4), 0x37) == RegOf(0x86, 0xD6)
  {
  }

  lemma CheckStep8()
    ensures Step(RegOf(0x86, 0xD6), 0x38) == RegOf(0x90, 0x15)
  {
  }

  lemma CheckStep9()
    ensures Step(RegOf(0x90, 0x15), 0x39) == RegOf(0x31, 0xC3)
  {
  }

  lemma QpigsStep1()
    ensures Step(RegOf(0x00, 0x00), 0x51) == RegOf(0x4A, 0xD4)
  {
  }

  lemma QpigsStep2()
    ensures Step(RegOf(0x4A, 0xD4), 0x50) == RegOf(0x67, 0x7B)
  {
  }

  lemma QpigsStep3()
    ensures Step(RegOf(0x67, 0x7B), 0x49) == RegOf(0xBE, 0xAC)
  {
  }

  lemma QpigsStep4()
    ensures Step(RegOf(0xBE, 0xAC), 0x47) == RegOf(0xD2, 0x36)
  {
  }

  lemma QpigsStep5()
    ensures Step(RegOf(0xD2, 0x36), 0x53) == RegOf(0xB7, 0xA9)
  {
  }
}

=== FILE: crc_vectors.dfy ===
/** Concrete values of the checksum: the CRC-16/XMODEM check value and the checksum of
    the QPIGS command, assembled from the single iterations. */
module CrcVectors {
  import opened Common
  import opened Crc
  import opened CrcSteps

  /** Feeding two parts in turn, when the register after each part is known. */
  lemma FeedParts(r0: Reg, r1: Reg, r2: Reg, a: seq<byte>, b: seq<byte>)
    requires CrcFrom(r0, a) == r1 && CrcFrom(r1, b) == r2
    ensures CrcFrom(r0, a + b) == r2
  {
    CrcFromAppend(r0, a, b);
  }

  // The messages in parts of at most three bytes, each part one lemma; a message is
  // given as its parts, so that no lemma has to take it apart byte by byte.

  lemma CheckPart1(m: seq<byte>)
    requires |m| == 3 && m[0] == 0x31 && m[1] == 0x32 && m[2] == 0x33
    ensures CrcFrom(RegOf(0x00, 0x00), m) == RegOf(0x97, 0x52)
  {
    CheckStep1();
    CheckStep2();
    CheckStep3();
    assert CrcFrom(RegOf(0x20, 0xB5), m[2..]) == RegOf(0x97, 0x52);
    assert CrcFrom(RegOf(0x26, 0x72), m[1..]) == RegOf(0x97, 0x52);
  }

  lemma CheckPart2(m: seq<byte>)
    requires |m| == 3 && m[0] == 0x34 && m[1] == 0x35 && m[2] == 0x36
    ensures CrcFrom(RegOf(0x97, 0x52), m) == RegOf(0x20, 0xE4)
  {
    CheckStep4();
    CheckStep5();
    CheckStep6();
    assert CrcFrom(RegOf(0x54, 0x6C), m[2..]) == RegOf(0x20, 0xE4);
    assert CrcFrom(RegOf(0xD7, 0x89), m[1..]) == RegOf(0x20, 0xE4);
  }

  lemma CheckPart3(m: seq<byte>)
    requires |m| == 3 && m[0] == 0x37 && m[1] == 0x38 && m[2] == 0x39
    ensures CrcFrom(RegOf(0x20, 0xE4), m) == RegOf(0x31, 0xC3)
  {
    CheckStep7();
    CheckStep8();
    CheckStep9();
    assert CrcFrom(RegOf(0x90, 0x15), m[2..]) == RegOf(0x31, 0xC3);
    assert CrcFrom(RegOf(0x86, 0xD6), m[1..]) == RegOf(0x31, 0xC3);
  }

  /** The register after feeding ASCII "123456789" to a clear register. */
  lemma CheckRegister(a: seq<byte>, b: seq<byte>, c: seq<byte>)
    requires |a| == 3 && a[0] == 0x31 && a[1] == 0x32 && a[2] == 0x33
    requires |b| == 3 && b[0] == 0x34 && b[1] == 0x35 && b[2] == 0x36
    requires |c| == 3 && c[0] == 0x37 && c[1] == 0x38 && c[2] == 0x39
    ensures CrcFrom(Zero, a + b + c) == RegOf(0x31, 0xC3)
  {
    CheckPart1(a);
    CheckPart2(b);
    CheckPart3(c);
    FeedParts(RegOf(0x00, 0x00), RegOf(0x97, 0x52), RegOf(0x20, 0xE4), a, b);
    FeedParts(RegOf(0x00, 0x00), RegOf(0x20, 0xE4), RegOf(0x31, 0xC3), a + b, c);
  }

  /** The CRC-16/XMODEM check value: the checksum of ASCII "123456789" is 0x31C3. */
  lemma CheckValue(a: seq<byte>, b: seq<byte>, c: seq<byte>)
    requires |a| == 3 && a[0] == 0x31 && a[1] == 0x32 && a[2] == 0x33
    requires |b| == 3 && b[0] == 0x34 && b[1] == 0x35 && b[2] == 0x36
    requires |c| == 3 && c[0] == 0x37 && c[1] == 0x38 && c[2] == 0x39
    ensures Checksum(a + b + c) == [0x31, 0xC3]
  {
    CheckRegister(a, b, c);
    RegBytesOf(0x31, 0xC3);
  }

  lemma QpigsPart1(m: seq<byte>)
    requires |m| == 3 && m[0] == 0x51 && m[1] == 0x50 && m[2] == 0x49
    ensures CrcFrom(RegOf(0x00, 0x00), m) == RegOf(0xBE, 0xAC)
  {
    QpigsStep1();
    QpigsStep2();
    QpigsStep3();
    assert CrcFrom(RegOf(0x67, 0x7B), m[2..]) == RegOf(0xBE, 0xAC);
    assert CrcFrom(RegOf(0x4A, 0xD4), m[1..]) == RegOf(0xBE, 0xAC);
  }

  lemma QpigsPart2(m: seq<byte>)
    requires |m| == 2 && m[0] == 0x47 && m[1] == 0x53
    ensures CrcFrom(RegOf(0xBE, 0xAC), m) == RegOf(0xB7, 0xA9)
  {
    QpigsStep4();
    QpigsStep5();
    assert CrcFrom(RegOf(0xD2, 0x36), m[1..]) == RegOf(0xB7, 0xA9);
  }

  /** The register after feeding the QPIGS command to a clear register. */
  lemma QpigsRegister(a: seq<byte>, b: seq<byte>)
    requires |a| == 3 && a[0] == 0x51 && a[1] == 0x50 && a[2] == 0x49
    requires |b| == 2 && b[0] == 0x47 && b[1] == 0x53
    ensures CrcFrom(Zero, a + b) == RegOf(0xB7, 0xA9)
  {
    QpigsPart1(a);
    QpigsPart2(b);
    FeedParts(RegOf(0x00, 0x00), RegOf(0xBE, 0xAC), RegOf(0xB7, 0xA9), a, b);
  }

  /** The checksum of the QPIGS command ("QPI" then "GS"), as it goes out on the wire: 0xB7 0xA9. */
  lemma QpigsCheckValue(a: seq<byte>, b: seq<byte>)
    requires |a| == 3 && a[0] == 0x51 && a[1] == 0x50 && a[2] == 0x49
    requires |b| == 2 && b[0] == 0x47 && b[1] == 0x53
    ensures Checksum(a + b) == [0xB7, 0xA9]
  {
    QpigsRegister(a, b);
    RegBytesOf(0xB7, 0xA9);
  }
}

=== FILE: framing.dfy ===
/** The PI30 frame codec around the checksum: how `send_command` frames a command for
    the wire, and how it turns the bytes received back into text.

    A request frame is the command in ASCII, the two checksum bytes (high byte first)
    and a carriage return. A response frame is `(`, the payload, two checksum bytes and
    a carriage return; the receiving side strips the first byte and the last three by
    position only, and decodes the rest as ASCII, dropping every byte above 0x7F. */
module Framing {
  import opened Common
  import opened Crc
  import opened CrcVectors

  // ---- ASCII ---------------------------------------------------------------------

  predicate IsAscii(s: string) {
    forall i :: 0 <= i < |s| ==> s[i] as int < 0x80
  }

  predicate AllAscii(bs: seq<byte>) {
    forall i :: 0 <= i < |bs| ==> bs[i] < 0x80
  }

  /** `str.encode('ascii')`: the character codes, or `None` where Python raises
      `UnicodeEncodeError` because some character is not ASCII. */
  function AsciiEncode(s: string): (r: Option<seq<byte>>)
    ensures r.Some? <==> IsAscii(s)
    ensures r.Some? ==> |r.value| == |s| && forall i :: 0 <= i < |s| ==> r.value[i] == s[i] as int
    decreases |s|
  {
    if |s| == 0 then Some([])
    else if s[0] as int >= 0x80 then None
    else match AsciiEncode(s[1..])
      case None => None
      case Some(rest) => Some([s[0] as int] + rest)
  }

  /** `bytes.decode('ascii', errors='ignore')`: every byte below 0x80 becomes the character
      with that code, in order; every other byte is dropped. */
  function AsciiDecode(bs: seq<byte>): (s: string)
    ensures |s| <= |bs|
    ensures IsAscii(s)
    decreases |bs|
  {
    if |bs| == 0 then ""
    else (if bs[0] < 0x80 then [ByteChar(bs[0])] else "") + AsciiDecode(bs[1..])
  }

  /** On ASCII bytes nothing is dropped: decoding keeps every byte, and encoding the
      text gives the bytes back. */
  lemma {:induction false} AsciiDecodeKeeps(bs: seq<byte>)
    requires AllAscii(bs)
    ensures |AsciiDecode(bs)| == |bs|
    ensures forall i :: 0 <= i < |bs| ==> AsciiDecode(bs)[i] as int == bs[i]
    ensures AsciiEncode(AsciiDecode(bs)) == Some(bs)
    decreases |bs|
  {
    if |bs| > 0 {
      AsciiDecodeKeeps(bs[1..]);
      var s := AsciiDecode(bs);
      assert s == [ByteChar(bs[0])] + AsciiDecode(bs[1..]);
      forall i | 0 <= i < |bs|
        ensures s[i] as int == bs[i]
      {
        if i > 0 {
          assert s[i] == AsciiDecode(bs[1..])[i - 1];
        }
      }
      assert AsciiEncode(s).value == bs;
    }
  }

  /** Decoding the ASCII encoding of a text gives the text back. */
  lemma AsciiEncodeDecode(s: string)
    requires IsAscii(s)
    ensures AllAscii(AsciiEncode(s).value)
    ensures AsciiDecode(AsciiEncode(s).value) == s
  {
    var e := AsciiEncode(s).value;
    assert AllAscii(e);
    AsciiDecodeKeeps(e);
    var d := AsciiDecode(e);
    assert forall i :: 0 <= i < |s| ==> d[i] as int == s[i] as int;
  }

  /** Decoding yields nothing exactly when every byte is above 0x7F. */
  lemma {:induction false} AsciiDecodeEmpty(bs: seq<byte>)
    ensures |AsciiDecode(bs)| == 0 <==> forall i :: 0 <= i < |bs| ==> bs[i] >= 0x80
    decreases |bs|
  {
    if |bs| > 0 {
      AsciiDecodeEmpty(bs[1..]);
      assert forall i :: 1 <= i < |bs| ==> bs[i] == bs[1..][i - 1];
    }
  }

  /** Decoding a concatenation decodes each part. */
  lemma {:induction false} AsciiDecodeAppend(a: seq<byte>, b: seq<byte>)
    ensures AsciiDecode(a + b) == AsciiDecode(a) + AsciiDecode(b)
    decreases |a|
  {
    if |a| == 0 {
      assert a + b == b;
    } else {
      assert (a + b)[1..] == a[1..] + b;
      AsciiDecodeAppend(a[1..], b);
    }
  }

  /** A single byte decodes to its character below 0x80 and to nothing otherwise. */
  lemma AsciiDecodeByte(x: byte)
    ensures AsciiDecode([x]) == if x < 0x80 then [ByteChar(x)] else ""
  {
    assert [x][1..] == [];
  }

  /** The bytes below 0x80, in order: a filter over the bytes, read from the end. */
  function AsciiBytes(bs: seq<byte>): (r: seq<byte>)
    ensures AllAscii(r) && |r| <= |bs|
    ensures r == bs <==> AllAscii(bs)
    decreases |bs|
  {
    if |bs| == 0 then []
    else
      var init := bs[..|bs| - 1];
      var x := bs[|bs| - 1];
      var r := AsciiBytes(init) + (if x < 0x80 then [x] else []);
      assert AllAscii(bs) ==> AllAscii(init) && r == init + [x] == bs;
      r
  }

  /** A text whose characters are, one for one, the codes `k`. */
  predicate Codes(d: string, k: seq<byte>) {
    |d| == |k| && forall i :: 0 <= i < |d| ==> d[i] as int == k[i]
  }

  /** Appending one decoded byte to both sides keeps them code for code. */
  lemma CodesSnoc(d: string, k: seq<byte>, x: byte)
    requires Codes(d, k)
    ensures Codes(d + (if x < 0x80 then [ByteChar(x)] else ""), k + (if x < 0x80 then [x] else []))
  {
  }

  /** The decoded text is, code for code, the bytes below 0x80. */
  lemma {:induction false} DecodeCodes(bs: seq<byte>)
    ensures Codes(AsciiDecode(bs), AsciiBytes(bs))
    decreases |bs|
  {
    if |bs| > 0 {
      var init := bs[..|bs| - 1];
      var x := bs[|bs| - 1];
      assert bs == init + [x];
      DecodeCodes(init);
      AsciiDecodeAppend(init, [x]);
      AsciiDecodeByte(x);
      CodesSnoc(AsciiDecode(init), AsciiBytes(init), x);
    }
  }

  /** An ASCII text encodes to its codes. */
  lemma EncodeCodes(d: string, k: seq<byte>)
    requires IsAscii(d) && Codes(d, k)
    ensures AsciiEncode(d) == Some(k)
  {
    var e := AsciiEncode(d).value;
    assert |e| == |k| && forall i :: 0 <= i < |e| ==> e[i] == k[i];
    assert e == k;
  }

  /** What the decoder keeps, for any bytes: the text is exactly the bytes below 0x80,
      in order, each as its character. */
  lemma AsciiDecodeKeepsAscii(bs: seq<byte>)
    ensures AsciiEncode(AsciiDecode(bs)) == Some(AsciiBytes(bs))
  {
    DecodeCodes(bs);
    EncodeCodes(AsciiDecode(bs), AsciiBytes(bs));
  }

  // ---- requests ------------------------------------------------------------------

  /** `cmd_bytes + crc + b'\r'`: the encoded command, its checksum, a carriage return. */
  function Frame(e: seq<byte>): (f: seq<byte>)
    ensures |f| == |e| + 3 && f[..|e|] == e && f[|e| + 2] == CR
    ensures f[|e|..|e| + 2] == Checksum(f[..|e|])
  {
    var f := e + Checksum(e) + [CR];
    assert f[..|e|] == e && f[|e|..|e| + 2] == Checksum(e);
    f
  }

  /** The frame written for a command, or `None` when the command is not ASCII (the
      encoding raises and `send_command` gives up). */
  function Request(cmd: string): (r: Option<seq<byte>>)
    ensures r.Some? <==> IsAscii(cmd)
    ensures r.Some? ==> |r.value| == |cmd| + 3 && r.value[|cmd| + 2] == CR
    ensures r.Some? ==> forall i :: 0 <= i < |cmd| ==> r.value[i] == cmd[i] as int
    ensures r.Some? ==> r.value[|cmd|..|cmd| + 2] == Checksum(r.value[..|cmd|])
  {
    match AsciiEncode(cmd)
    case None => None
    case Some(e) => Some(Frame(e))
  }

  /** The QPIGS request as it goes out on the wire: `QPIGS`, 0xB7 0xA9, carriage return
      (the command given as "QPI" and "GS", see `CrcVectors`). */
  lemma QpigsFrame(a: seq<byte>, b: seq<byte>)
    requires |a| == 3 && a[0] == 0x51 && a[1] == 0x50 && a[2] == 0x49
    requires |b| == 2 && b[0] == 0x47 && b[1] == 0x53
    ensures Frame(a + b) == a + b + [0xB7, 0xA9, CR]
  {
    var m := a + b;
    QpigsCheckValue(a, b);
    assert Checksum(m) == [0xB7, 0xA9];
    assert Frame(m) == m + Checksum(m) + [CR];
  }

  /** The QPIGS command ("QPI" then "GS") is ASCII and is sent as its five bytes followed
      by 0xB7 0xA9 and a carriage return. */
  lemma QpigsRequest(a: string, b: string)
    requires |a| == 3 && a[0] == 'Q' && a[1] == 'P' && a[2] == 'I'
    requires |b| == 2 && b[0] == 'G' && b[1] == 'S'
    ensures Request(a + b) == Some(AsciiEncode(a + b).value + [0xB7, 0xA9, CR])
  {
    var e := AsciiEncode(a + b).value;
    assert |e| == 5 && e[0] == 0x51 && e[1] == 0x50 && e[2] == 0x49 && e[3] == 0x47 && e[4] == 0x53;
    var ea := e[..3];
    var eb := e[3..];
    assert ea + eb == e;
    QpigsFrame(ea, eb);
    assert Request(a + b) == Some(Frame(e));
  }

  /** The receiving end of a request: a frame is accepted when it ends with a carriage
      return, its two bytes before that are the checksum of the rest, and the rest is
      ASCII; the command is that rest. */
  function ParseRequest(f: seq<byte>): (r: Option<string>)
    ensures r.Some? ==> |f| >= 3 && f[|f| - 1] == CR && |r.value| == |f| - 3
  {
    if |f| < 3 || f[|f| - 1] != CR then None
    else
      var body := f[..|f| - 3];
      if f[|f| - 3..|f| - 1] != Checksum(body) || !AllAscii(body) then None
      else
        AsciiDecodeKeeps(body);
        Some(AsciiDecode(body))
  }

  /** Every request frame is accepted, and gives its command back. */
  lemma RequestParses(cmd: string)
    requires IsAscii(cmd)
    ensures ParseRequest(Request(cmd).value) == Some(cmd)
  {
    var e := AsciiEncode(cmd).value;
    var f := Request(cmd).value;
    assert f == Frame(e) == e + Checksum(e) + [CR];
    assert f[..|f| - 3] == e;
    AsciiEncodeDecode(cmd);
  }

  /** A byte string ending in a carriage return is its body, two bytes and that return. */
  lemma FrameParts(f: seq<byte>)
    requires |f| >= 3 && f[|f| - 1] == CR
    ensures f == f[..|f| - 3] + f[|f| - 3..|f| - 1] + [CR]
  {
  }

  /** Every accepted frame is the request frame of the command it gives. */
  lemma ParsedIsRequest(f: seq<byte>)
    requires ParseRequest(f).Some?
    ensures Request(ParseRequest(f).value) == Some(f)
  {
    var body := f[..|f| - 3];
    var sum := f[|f| - 3..|f| - 1];
    assert sum == Checksum(body) && AllAscii(body);
    FrameParts(f);
    AsciiDecodeKeeps(body);
    var cmd := AsciiDecode(body);
    assert ParseRequest(f) == Some(cmd);
    assert AsciiEncode(cmd) == Some(body);
    assert Request(cmd) == Some(Frame(body));
  }

  /** A request frame without its carriage return has checksum zero. */
  lemma RequestResidue(cmd: string)
    requires IsAscii(cmd)
    ensures Checksum(Request(cmd).value[..|cmd| + 2]) == [0, 0]
  {
    var e := AsciiEncode(cmd).value;
    assert Request(cmd).value == Frame(e) == e + Checksum(e) + [CR];
    assert Request(cmd).value[..|cmd| + 2] == e + Checksum(e);
    ChecksumResidue(e);
  }

  // ---- responses -----------------------------------------------------------------

  /** The post-processing of the bytes received for one command: nothing received is
      `None`; otherwise a leading `(` and the last three bytes are cut off by position
      (`response[1:-3]`) and the rest is decoded as ASCII, ignoring other bytes. */
  function Deframe(raw: seq<byte>): (r: Option<string>)
    ensures r.None? <==> |raw| == 0
    ensures |raw| >= 4 && raw[0] == OpenParen ==> r == Some(AsciiDecode(raw[1..|raw| - 3]))
    ensures 0 < |raw| <= 4 && raw[0] == OpenParen ==> r == Some("")
    ensures |raw| > 0 && raw[0] != OpenParen ==> r == Some(AsciiDecode(raw))
  {
    if |raw| == 0 then None
    else if raw[0] == OpenParen then Some(AsciiDecode(PySlice(raw, 1, -3)))
    else Some(AsciiDecode(raw))
  }

  /** The frame a device sends for an ASCII payload: `(`, the payload, the checksum of
      both, and a carriage return. */
  function ResponseFrame(payload: seq<byte>): (f: seq<byte>)
    ensures |f| == |payload| + 4 && f[0] == OpenParen && f[|f| - 1] == CR
    ensures f[1..|f| - 3] == payload
  {
    var head := [OpenParen] + payload;
    var f := head + Checksum(head) + [CR];
    assert f[1..|f| - 3] == payload;
    f
  }

  /** De-framing a device frame gives its payload back as text. */
  lemma DeframeResponse(payload: seq<byte>)
    requires AllAscii(payload)
    ensures Deframe(ResponseFrame(payload)).Some?
    ensures AsciiEncode(Deframe(ResponseFrame(payload)).value) == Some(payload)
  {
    AsciiDecodeKeeps(payload);
  }

  /** The three trailing bytes are never looked at: whatever checksum and terminator a
      reply carries, even wrong ones, the text is the same. */
  lemma TrailerIgnored(payload: seq<byte>, c1: byte, c2: byte, c3: byte)
    ensures Deframe([OpenParen] + payload + [c1, c2, c3]) == Some(AsciiDecode(payload))
  {
    var raw := [OpenParen] + payload + [c1, c2, c3];
    assert raw[1..|raw| - 3] == payload;
  }

  /** A reply that does not start with `(` is not cut: all its bytes below 0x80 are kept,
      so an all-ASCII reply is passed through whole, checksum and carriage return
      included. */
  lemma UnframedPassesThrough(raw: seq<byte>)
    requires |raw| > 0 && raw[0] != OpenParen
    ensures AsciiEncode(Deframe(raw).value) == Some(AsciiBytes(raw))
    ensures AllAscii(raw) ==> AsciiEncode(Deframe(raw).value) == Some(raw)
  {
    AsciiDecodeKeepsAscii(raw);
  }

  /** The kept bytes of a byte string grown by one byte. */
  lemma AsciiBytesSnoc(bs: seq<byte>, x: byte)
    ensures AsciiBytes(bs + [x]) == AsciiBytes(bs) + (if x < 0x80 then [x] else [])
  {
    assert (bs + [x])[..|bs|] == bs;
  }

  /** A body and a three-byte trailer, one byte at a time. */
  lemma TrailerParts(body: seq<byte>, c1: byte, c2: byte)
    ensures body + [c1, c2, CR] == body + [c1] + [c2] + [CR]
  {
  }

  /** Two dropped checksum bytes leave only the carriage return after the kept body. */
  lemma DroppedChecksum(kept: seq<byte>)
    ensures kept + [] + [] + [CR] == kept + [CR]
  {
  }

  /** An unframed reply ending in two checksum bytes and a carriage return: the text is
      the kept bytes of the body, then each checksum byte that is below 0x80, then the
      carriage return. Checksum bytes above 0x7F, the usual case, vanish from the text. */
  lemma UnframedTrailer(body: seq<byte>, c1: byte, c2: byte)
    requires |body| > 0 && body[0] != OpenParen
    ensures AsciiEncode(Deframe(body + [c1, c2, CR]).value) ==
      Some(AsciiBytes(body) + (if c1 < 0x80 then [c1] else []) + (if c2 < 0x80 then [c2] else []) + [CR])
    ensures c1 >= 0x80 && c2 >= 0x80 ==>
      AsciiEncode(Deframe(body + [c1, c2, CR]).value) == Some(AsciiBytes(body) + [CR])
  {
    var raw := body + [c1, c2, CR];
    assert raw[0] == body[0];
    UnframedPassesThrough(raw);
    TrailerParts(body, c1, c2);
    AsciiBytesSnoc(body, c1);
    AsciiBytesSnoc(body + [c1], c2);
    AsciiBytesSnoc(body + [c1] + [c2], CR);
    if c1 >= 0x80 && c2 >= 0x80 {
      DroppedChecksum(AsciiBytes(body));
    }
  }

  /** `if not response`: no reply at all, or an empty text. */
  predicate NoResponse(r: Option<string>) {
    r.None? || |r.value| == 0
  }

  /** Which received bytes count as no response: none at all, or nothing below 0x80 in
      the part that de-framing keeps. */
  lemma NoResponseExactly(raw: seq<byte>)
    ensures NoResponse(Deframe(raw)) <==>
      |raw| == 0 ||
      (raw[0] == OpenParen && forall i :: 1 <= i < |raw| - 3 ==> raw[i] >= 0x80) ||
      (raw[0] != OpenParen && forall i :: 0 <= i < |raw| ==> raw[i] >= 0x80)
  {
    if |raw| > 0 {
      if raw[0] == OpenParen {
        if |raw| >= 4 {
          var kept := raw[1..|raw| - 3];
          assert Deframe(raw) == Some(AsciiDecode(kept));
          AsciiDecodeEmpty(kept);
          assert forall i :: 1 <= i < |raw| - 3 ==> raw[i] == kept[i - 1];
        } else {
          assert Deframe(raw) == Some("");
        }
      } else {
        assert Deframe(raw) == Some(AsciiDecode(raw));
        AsciiDecodeEmpty(raw);
      }
    }
  }

  /** `send_command` after the port check: `None` when the port is not open, when the
      command is not ASCII, when the serial line raised (`received` is `None`) or when
      nothing arrived; otherwise the de-framed reply. The frame written is
      `Request(cmd)`; the read loop that collects `received` is not modelled. */
  function SendCommand(portOpen: bool, cmd: string, received: Option<seq<byte>>): (r: Option<string>)
    ensures r.Some? <==> portOpen && IsAscii(cmd) && received.Some? && |received.value| > 0
    ensures r.Some? ==> r == Deframe(received.value)
  {
    if !portOpen then None
    else match Request(cmd)
      case None => None
      case Some(_) =>
        match received
        case None => None
        case Some(raw) => Deframe(raw)
  }
}

=== FILE: numbers.dfy ===
/** Python's `int()` and `float()` on the tokens of a status line, and `int()` on a float.

    Only optionally signed decimal digit strings are modelled (`int`: digits; `float`:
    digits with an optional point and fraction). Decimals are exact rationals, so IEEE-754
    rounding is not part of the model. */
module Numbers {
  import opened Common

  predicate IsDigit(c: char) {
    '0' <= c <= '9'
  }

  predicate AllDigits(s: string) {
    forall i :: 0 <= i < |s| ==> IsDigit(s[i])
  }

  function DigitValue(c: char): (d: nat)
    requires IsDigit(c)
    ensures d < 10
  {
    c as int - '0' as int
  }

  function DigitChar(d: nat): (c: char)
    requires d < 10
    ensures IsDigit(c) && DigitValue(c) == d
  {
    ('0' as int + d) as char
  }

  function Pow10(k: nat): (p: nat)
    ensures p >= 1
  {
    if k == 0 then 1 else 10 * Pow10(k - 1)
  }

  /** The number a string of decimal digits stands for, most significant digit first. */
  function Value(ds: string): (v: nat)
    requires AllDigits(ds)
    ensures v < Pow10(|ds|)
    decreases |ds|
  {
    if |ds| == 0 then 0
    else Value(ds[..|ds| - 1]) * 10 + DigitValue(ds[|ds| - 1])
  }

  /** `a` split at the decimal point of `a / 10^k`: the whole part and the `k` decimals. */
  function Shift(a: nat, k: nat): (qr: (nat, nat))
    ensures qr.1 < Pow10(k) && a == qr.0 * Pow10(k) + qr.1
  {
    var p := Pow10(k);
    DivMod(a, p);
    (a / p, a % p)
  }

  lemma DivMod(a: nat, p: nat)
    requires p >= 1
    ensures a / p >= 0 && a == (a / p) * p + a % p && 0 <= a % p < p
  {
  }

  lemma ShiftDigit(va: int, p: int, vb: int, d: int)
    ensures (va * p + vb) * 10 + d == va * (10 * p) + (vb * 10 + d)
  {
  }

  /** Digits written after other digits shift them left. */
  lemma {:induction false} ValueAppend(a: string, b: string)
    requires AllDigits(a) && AllDigits(b)
    ensures AllDigits(a + b)
    ensures Value(a + b) == Value(a) * Pow10(|b|) + Value(b)
    decreases |b|
  {
    if |b| > 0 {
      var ab := a + b;
      var b' := b[..|b| - 1];
      var d := DigitValue(b[|b| - 1]);
      assert ab[..|ab| - 1] == a + b';
      assert ab[|ab| - 1] == b[|b| - 1];
      ValueAppend(a, b');
      assert Value(ab) == Value(a + b') * 10 + d;
      assert Value(b) == Value(b') * 10 + d;
      ShiftDigit(Value(a), Pow10(|b'|), Value(b'), d);
    } else {
      assert a + b == a;
    }
  }

  /** Leading zeros do not change the value, as in `int('0229') == 229`. */
  lemma LeadingZeros(zs: string, ds: string)
    requires forall i :: 0 <= i < |zs| ==> zs[i] == '0'
    requires AllDigits(ds)
    ensures AllDigits(zs + ds) && Value(zs + ds) == Value(ds)
  {
    ZerosValue(zs);
    ValueAppend(zs, ds);
  }

  lemma {:induction false} ZerosValue(zs: string)
    requires forall i :: 0 <= i < |zs| ==> zs[i] == '0'
    ensures AllDigits(zs) && Value(zs) == 0
    decreases |zs|
  {
    if |zs| > 0 {
      ZerosValue(zs[..|zs| - 1]);
    }
  }

  /** An optional leading sign: whether it is `-`, and the rest of the token. */
  function Sign(t: string): (r: (bool, string))
    ensures |t| > 0 && t[0] == '-' ==> r == (true, t[1..])
    ensures |t| > 0 && t[0] == '+' ==> r == (false, t[1..])
    ensures (|t| == 0 || (t[0] != '-' && t[0] != '+')) ==> r == (false, t)
  {
    if |t| > 0 && t[0] == '-' then (true, t[1..])
    else if |t| > 0 && t[0] == '+' then (false, t[1..])
    else (false, t)
  }

  /** The most digits `int()` converts from a decimal string: CPython's default
      `sys.get_int_max_str_digits()`. Leading zeros count; the sign does not. */
  const MaxIntDigits: nat := 4300

  /** `int(t)`: an optional sign and between one and `MaxIntDigits` digits, or `None`
      where Python raises `ValueError`. */
  function ParseInt(t: string): (r: Option<int>)
    ensures r.Some? ==> |t| > 0 && 0 < |Sign(t).1| <= MaxIntDigits
    ensures r.Some? && t[0] != '-' ==> r.value >= 0
  {
    var (neg, ds) := Sign(t);
    if |ds| == 0 || !AllDigits(ds) || |ds| > MaxIntDigits then None
    else
      var v: int := Value(ds);
      Some(if neg then -v else v)
  }

  /** The position of the first `.` in `s`, if any. */
  function Point(s: string): (r: Option<nat>)
    ensures r.Some? ==> r.value < |s| && s[r.value] == '.' && forall i :: 0 <= i < r.value ==> s[i] != '.'
    ensures r.None? ==> forall i :: 0 <= i < |s| ==> s[i] != '.'
    decreases |s|
  {
    if |s| == 0 then None
    else if s[0] == '.' then Some(0)
    else match Point(s[1..])
      case None => None
      case Some(k) => Some(k + 1)
  }

  /** The value of `whole.frac`. */
  function DecimalValue(whole: string, frac: string): real
    requires AllDigits(whole) && AllDigits(frac)
  {
    Value(whole) as real + Value(frac) as real / Pow10(|frac|) as real
  }

  /** `float(t)`: an optional sign, then digits with an optional point and fraction, with at
      least one digit in all (`5`, `5.`, `.5`, `05.50`), or `None` where Python raises. */
  function ParseFloat(t: string): (r: Option<real>)
    ensures r.Some? ==> |t| > 0
    ensures r.Some? && t[0] != '-' ==> r.value >= 0.0
  {
    var (neg, body) := Sign(t);
    var (whole, frac) := match Point(body)
      case None => (body, "")
      case Some(k) => (body[..k], body[k + 1..]);
    if |whole| + |frac| == 0 || !AllDigits(whole) || !AllDigits(frac) then None
    else if neg then Some(-DecimalValue(whole, frac))
    else Some(DecimalValue(whole, frac))
  }

  /** Every `int()` token is also a `float()` token with the same value; so the source's
      `int(float(tok))` on such a token is `int(tok)`. */
  lemma IntIsFloat(t: string)
    requires ParseInt(t).Some?
    ensures ParseFloat(t) == Some(ParseInt(t).value as real)
    ensures Trunc(ParseFloat(t).value) == ParseInt(t).value
  {
    var (neg, body) := Sign(t);
    assert Point(body).None?;
    assert DecimalValue(body, "") == Value(body) as real;
  }

  /** `int(x)` on a float: the integer part, rounding toward zero. */
  function Trunc(x: real): (n: int)
    ensures x >= 0.0 ==> n >= 0 && n as real <= x < n as real + 1.0
    ensures x < 0.0 ==> n <= 0 && n as real - 1.0 < x <= n as real
  {
    if x >= 0.0 then x.Floor else -((-x).Floor)
  }

  // ---- the device's notation, which `int()` and `float()` read back ----------------

  /** The decimal digits of `n`, without leading zeros. */
  /** How many decimal digits `n` takes, written without leading zeros. */
  function DigitCount(n: nat): (c: nat)
    ensures c > 0
  {
    if n < 10 then 1 else 1 + DigitCount(n / 10)
  }

  function ShowNat(n: nat): (s: string)
    ensures |s| > 0 && AllDigits(s) && Value(s) == n
    ensures |s| == DigitCount(n)
    decreases n
  {
    if n < 10 then [DigitChar(n)]
    else
      var s := ShowNat(n / 10) + [DigitChar(n % 10)];
      assert s[..|s| - 1] == ShowNat(n / 10);
      s
  }

  /** `n` in exactly `k` digits, with leading zeros, as the device writes `0229`. */
  function Padded(n: nat, k: nat): (s: string)
    requires n < Pow10(k)
    ensures |s| == k && AllDigits(s) && Value(s) == n
    decreases k
  {
    if k == 0 then ""
    else
      var s := Padded(n / 10, k - 1) + [DigitChar(n % 10)];
      assert s[..|s| - 1] == Padded(n / 10, k - 1);
      s
  }

  /** Zero in `k` digits is `k` zeros, as in the `00` of `00.00`. */
  lemma {:induction false} PaddedZero(k: nat)
    ensures forall i :: 0 <= i < k ==> Padded(0, k)[i] == '0'
    decreases k
  {
    if k > 0 {
      PaddedZero(k - 1);
      assert Padded(0, k) == Padded(0, k - 1) + ['0'];
    }
  }

  /** The whole part of a number as the device writes it: `pad` zeros, then the digits
      of `q` (`WholePart(0, 2)` is `000`, `WholePart(229, 1)` is `0229`). */
  function WholePart(q: nat, pad: nat): (s: string)
    ensures |s| > 0 && AllDigits(s) && Value(s) == q
    ensures |s| == pad + DigitCount(q)
  {
    var zs := Padded(0, pad);
    ValueAppend(zs, ShowNat(q));
    zs + ShowNat(q)
  }

  /** How many digits `FixedPoint(m, pad, 0)` writes, leading zeros included. */
  function WholeDigits(m: int, pad: nat): nat {
    pad + DigitCount(if m < 0 then -m else m)
  }

  /** `m / 10^k` written with `pad` extra leading zeros, `k` decimals (no point when `k`
      is 0), and a minus sign when negative: `FixedPoint(5440, 0, 2)` is `54.40`,
      `FixedPoint(0, 2, 1)` is `000.0` and `FixedPoint(16, 1, 0)` is `016`. */
  function FixedPoint(m: int, pad: nat, k: nat): string {
    var qr := Shift(if m < 0 then -m else m, k);
    var body := WholePart(qr.0, pad) + (if k == 0 then "" else "." + Padded(qr.1, k));
    if m < 0 then "-" + body else body
  }

  /** The text after an optional sign in `FixedPoint`: the whole part, the decimals. */
  lemma FixedPointParts(whole: string, frac: string, k: nat)
    requires |whole| > 0 && AllDigits(whole) && AllDigits(frac) && |frac| == k
    ensures var body := whole + (if k == 0 then "" else "." + frac);
      match Point(body)
      case None => k == 0 && body == whole
      case Some(i) => k > 0 && body[..i] == whole && body[i + 1..] == frac
  {
    var body := whole + (if k == 0 then "" else "." + frac);
    if k == 0 {
      assert body == whole;
      assert forall i :: 0 <= i < |body| ==> body[i] != '.';
    } else {
      assert body[|whole|] == '.';
      assert forall i :: 0 <= i < |whole| ==> body[i] == whole[i];
      assert Point(body) == Some(|whole|);
      assert body[..|whole|] == whole;
      assert body[|whole| + 1..] == frac;
    }
  }

  /** `float()` on a sign and the text `FixedPoint` writes after it. */
  lemma ParseFixedPointBody(neg: bool, whole: string, frac: string, k: nat)
    requires |whole| > 0 && AllDigits(whole) && AllDigits(frac) && |frac| == k
    ensures var body := whole + (if k == 0 then "" else "." + frac);
      var v := DecimalValue(whole, frac);
      ParseFloat(if neg then "-" + body else body) == Some(if neg then -v else v)
  {
    var body := whole + (if k == 0 then "" else "." + frac);
    var t := if neg then "-" + body else body;
    assert whole[0] != '-' && whole[0] != '+';
    assert Sign(t) == (neg, body);
    FixedPointParts(whole, frac, k);
    if k == 0 {
      assert DecimalValue(whole, frac) == DecimalValue(body, "");
    }
  }

  /** `float()` reads back what `FixedPoint` writes. */
  lemma ParseFixedPoint(m: int, pad: nat, k: nat)
    ensures ParseFloat(FixedPoint(m, pad, k)) == Some(m as real / Pow10(k) as real)
  {
    var a: nat := if m < 0 then -m else m;
    var (q, r) := Shift(a, k);
    var whole := WholePart(q, pad);
    var frac := if k == 0 then "" else Padded(r, k);
    var body := whole + (if k == 0 then "" else "." + frac);
    assert FixedPoint(m, pad, k) == if m < 0 then "-" + body else body;
    ParseFixedPointBody(m < 0, whole, frac, k);
    FixedPointValue(m, k, q, r, whole, frac);
  }

  /** The whole part and decimals `FixedPoint` writes stand for `m / 10^k`. */
  lemma FixedPointValue(m: int, k: nat, q: nat, r: nat, whole: string, frac: string)
    requires (q, r) == Shift(if m < 0 then -m else m, k)
    requires AllDigits(whole) && Value(whole) == q
    requires AllDigits(frac) && |frac| == k && Value(frac) == r
    ensures var v := DecimalValue(whole, frac);
      (if m < 0 then -v else v) == m as real / Pow10(k) as real
  {
    var a: nat := if m < 0 then -m else m;
    var p := Pow10(k);
    var v := DecimalValue(whole, frac);
    assert v == q as real + r as real / p as real;
    ShiftReal(a, q, r, p);
    assert v == a as real / p as real;
    if m < 0 {
      NegQuotient(a as real, p as real);
      assert m as real == -(a as real);
    }
  }

  lemma NegQuotient(x: real, p: real)
    requires p > 0.0
    ensures -(x / p) == (-x) / p
  {
  }

  lemma ShiftReal(a: nat, q: nat, r: nat, p: nat)
    requires p >= 1 && a == q * p + r
    ensures q as real + r as real / p as real == a as real / p as real
  {
    assert a as real == q as real * p as real + r as real;
  }

  /** `int()` refuses a token with a decimal point, as in `int('54.40')`. */
  lemma ParseIntRejectsPoint(t: string, i: nat)
    requires i < |t| && t[i] == '.'
    ensures ParseInt(t).None?
  {
    var (neg, ds) := Sign(t);
    assert !IsDigit(t[i]);
  }

  /** With no decimals, `FixedPoint` writes a whole number, leading zeros and all, that
      `int()` reads back, as `int('0229') == 229`, unless it has more digits than
      `int()` converts. */
  lemma ParseFixedPointWhole(m: int, pad: nat)
    ensures WholeDigits(m, pad) <= MaxIntDigits ==> ParseInt(FixedPoint(m, pad, 0)) == Some(m)
    ensures WholeDigits(m, pad) > MaxIntDigits ==> ParseInt(FixedPoint(m, pad, 0)) == None
  {
    var a: nat := if m < 0 then -m else m;
    assert Shift(a, 0) == (a, 0);
    var whole := WholePart(a, pad);
    assert FixedPoint(m, pad, 0) == if m < 0 then "-" + whole else whole;
    assert whole[0] != '-' && whole[0] != '+';
    if m < 0 {
      assert Sign("-" + whole) == (true, whole);
    }
  }

  /** A number below `10^k` takes at most `k` digits. */
  lemma {:induction false} DigitCountAtMost(n: nat, k: nat)
    requires 0 < k && n < Pow10(k)
    ensures DigitCount(n) <= k
    decreases k
  {
    if n >= 10 {
      assert k > 1;
      DigitCountAtMost(n / 10, k - 1);
    }
  }

  /** A whole number below `10^k` in magnitude, written with `pad` leading zeros, takes
      at most `pad + k` digits. */
  lemma WholeDigitsAtMost(m: int, pad: nat, k: nat)
    requires 0 < k && -(Pow10(k) as int) < m < Pow10(k)
    ensures WholeDigits(m, pad) <= pad + k
  {
    DigitCountAtMost(if m < 0 then -m else m, k);
  }

  /** `FixedPoint` writes digits, a point when there are decimals, and a leading minus. */
  lemma FixedPointChars(m: int, pad: nat, k: nat)
    ensures var s := FixedPoint(m, pad, k);
      |s| > 0 && forall i :: 0 <= i < |s| ==> IsDigit(s[i]) || s[i] == '.' || s[i] == '-'
    ensures k > 0 ==> exists i :: 0 <= i < |FixedPoint(m, pad, k)| && FixedPoint(m, pad, k)[i] == '.'
  {
    var a: nat := if m < 0 then -m else m;
    var qr := Shift(a, k);
    var whole := WholePart(qr.0, pad);
    var frac := if k == 0 then "" else Padded(qr.1, k);
    var tail := if k == 0 then "" else "." + frac;
    assert FixedPoint(m, pad, k) == if m < 0 then "-" + (whole + tail) else whole + tail;
    NumberChars(m < 0, whole, frac, k);
  }

  /** The characters of a signed number made of a whole part and `k` decimals. */
  lemma NumberChars(neg: bool, whole: string, frac: string, k: nat)
    requires |whole| > 0 && AllDigits(whole) && AllDigits(frac)
    ensures var tail := if k == 0 then "" else "." + frac;
      var s := if neg then "-" + (whole + tail) else whole + tail;
      |s| > 0 && (forall i :: 0 <= i < |s| ==> IsDigit(s[i]) || s[i] == '.' || s[i] == '-') &&
      (k > 0 ==> s[if neg then |whole| + 1 else |whole|] == '.')
  {
    var tail := if k == 0 then "" else "." + frac;
    var body := whole + tail;
    var s := if neg then "-" + body else body;
    var off := if neg then 1 else 0;
    forall i | 0 <= i < |s|
      ensures IsDigit(s[i]) || s[i] == '.' || s[i] == '-'
    {
      if i < off {
        assert s[i] == '-';
      } else {
        var j := i - off;
        assert s[i] == body[j];
        if j < |whole| {
          assert body[j] == whole[j];
        } else {
          assert body[j] == tail[j - |whole|];
          if j > |whole| {
            assert tail[j - |whole|] == frac[j - |whole| - 1];
          }
        }
      }
    }
    if k > 0 {
      assert s[off + |whole|] == body[|whole|] == '.';
    }
  }
}

=== FILE: qpigs.dfy ===
/** `parse_qpigs_response`: the device's reply to the QPIGS query is split at whitespace,
    read positionally into a status record, and completed with a guessed PV power, the
    battery state and the decoded status flags. Any token `int()` or `float()` refuses
    discards the whole record. */
module Qpigs {
  import opened Common
  import opened Tokens
  import opened Numbers

  /** Tokens a reply must have: sixteen numbers and the status bits. */
  const FieldCount: nat := 17

  /** The numeric tokens, 0 to 15. */
  const NumericCount: nat := 16

  /** Position of the status bits token. */
  const StatusIndex: nat := 16

  /** The PV power, in watts, that the heuristic looks for. */
  const TargetPower: int := 85

  /** Whether a token is read with `float()` or with `int()`. */
  datatype Kind = Decimal | Whole

  /** How numeric token `i` is read, in the order of the reply: with `float()` for the
      grid voltage and frequency, the output voltage and frequency (0-3), the battery
      voltage (8) and the PV current, PV voltage and SCC voltage (12-14); with `int()` for
      the powers, load and bus voltage (4-7), the charging current, capacity and inverter
      temperature (9-11) and the discharge current (15). */
  function KindAt(i: nat): Kind {
    if i < 4 || i == 8 || 12 <= i <= 14 then Decimal else Whole
  }

  datatype BatteryStatus = Charging | Discharging | Idle

  datatype InverterMode = OnBattery | OnGrid

  /** The record the parser returns. */
  datatype Status = Status(
    gridVoltage: real,
    gridFrequency: real,
    acOutputVoltage: real,
    acOutputFrequency: real,
    acOutputApparentPower: int,
    acOutputActivePower: int,
    loadPercent: int,
    busVoltage: int,
    batteryVoltage: real,
    batteryChargingCurrent: int,
    batteryCapacity: int,
    inverterTemperature: int,
    pvInputCurrent: real,
    pvInputVoltage: real,
    batterySccVoltage: real,
    batteryDischargeCurrent: int,
    deviceStatus: string,
    pvInputPower: int,
    batteryStatus: BatteryStatus,
    batteryPower: real,
    inverterMode: Option<InverterMode>,
    chargingEnabled: Option<bool>,
    loadOn: Option<bool>)

  /** Why no record was produced; the source logs and returns `None` in both cases. */
  datatype ParseError = TooFewFields(count: nat) | Malformed(index: nat)

  /** A numeric token as Python holds it after `float()` or `int()`. */
  datatype Reading = Dec(x: real) | Int(n: int)

  /** The numeric fields of a record, in the order of the reply. */
  function Readings(s: Status): (rs: seq<Reading>)
    ensures WellKinded(rs)
  {
    [Dec(s.gridVoltage), Dec(s.gridFrequency), Dec(s.acOutputVoltage), Dec(s.acOutputFrequency),
     Int(s.acOutputApparentPower), Int(s.acOutputActivePower), Int(s.loadPercent), Int(s.busVoltage),
     Dec(s.batteryVoltage),
     Int(s.batteryChargingCurrent), Int(s.batteryCapacity), Int(s.inverterTemperature),
     Dec(s.pvInputCurrent), Dec(s.pvInputVoltage), Dec(s.batterySccVoltage),
     Int(s.batteryDischargeCurrent)]
  }

  /** Sixteen readings, each of the kind its position calls for. */
  predicate WellKinded(rs: seq<Reading>) {
    |rs| == NumericCount && forall i :: 0 <= i < |rs| ==> (rs[i].Int? <==> KindAt(i) == Whole)
  }

  /** A token read as `kind`, or `None` where Python raises `ValueError`. */
  function ReadToken(t: string, kind: Kind): (r: Option<Reading>)
    ensures r.Some? ==> (r.value.Int? <==> kind == Whole)
  {
    match kind
    case Decimal => (match ParseFloat(t) case None => None case Some(x) => Some(Dec(x)))
    case Whole => (match ParseInt(t) case None => None case Some(n) => Some(Int(n)))
  }

  predicate Readable(fields: seq<string>, i: nat)
    requires |fields| >= NumericCount && i < NumericCount
  {
    ReadToken(fields[i], KindAt(i)).Some?
  }

  /** The numeric tokens from `from` on, read in order; the first that does not parse is
      the one whose `ValueError` ends the evaluation of the record. */
  function ReadFields(fields: seq<string>, from: nat): (r: Result<seq<Reading>, nat>)
    requires |fields| >= NumericCount && from <= NumericCount
    ensures r.Ok? <==> forall j :: from <= j < NumericCount ==> Readable(fields, j)
    ensures r.Ok? ==> |r.value| == NumericCount - from
    ensures r.Ok? ==> forall j :: from <= j < NumericCount ==> ReadToken(fields[j], KindAt(j)) == Some(r.value[j - from])
    ensures r.Ok? ==> forall j :: from <= j < NumericCount ==> (r.value[j - from].Int? <==> KindAt(j) == Whole)
    ensures r.Err? ==> from <= r.error < NumericCount && !Readable(fields, r.error)
    ensures r.Err? ==> forall j :: from <= j < r.error ==> Readable(fields, j)
    decreases NumericCount - from
  {
    if from == NumericCount then Ok([])
    else match ReadToken(fields[from], KindAt(from))
      case None =>
        assert !Readable(fields, from);
        Err(from)
      case Some(v) =>
        match ReadFields(fields, from + 1)
        case Err(i) => Err(i)
        case Ok(vs) =>
          var rs := [v] + vs;
          assert rs[0] == v && rs[1..] == vs;
          Ok(rs)
  }

  // ---- the PV power heuristic ------------------------------------------------------

  /** How far a candidate is from the expected power. */
  function Distance(p: int): (d: nat)
    ensures d as int == p - TargetPower || d as int == TargetPower - p
    ensures d as int >= p - TargetPower && d as int >= TargetPower - p
  {
    if p >= TargetPower then p - TargetPower else TargetPower - p
  }

  /** The six guesses at the PV power: voltage times current read in tenths and in
      hundredths of an ampere, truncated, then four other readings. */
  function PvCandidates(voltage: real, current: real, others: seq<int>): (cs: seq<int>)
    ensures |cs| == 2 + |others| && cs[2..] == others
  {
    [Trunc(voltage * (current / 10.0)), Trunc(voltage * (current / 100.0))] + others
  }

  /** `i` is what Python's `min(cs, key=...)` picks: nothing is closer, and everything
      before it is farther. */
  predicate IsFirstNearest(cs: seq<int>, i: nat) {
    i < |cs| &&
    (forall j :: 0 <= j < |cs| ==> Distance(cs[i]) <= Distance(cs[j])) &&
    (forall j :: 0 <= j < i ==> Distance(cs[i]) < Distance(cs[j]))
  }

  /** Python's `min` with a key: a scan that replaces the best so far only by a strictly
      closer candidate. */
  function NearestIndex(cs: seq<int>): (i: nat)
    requires |cs| > 0
    ensures IsFirstNearest(cs, i)
    decreases |cs|
  {
    if |cs| == 1 then 0
    else
      var b := NearestIndex(cs[..|cs| - 1]);
      if Distance(cs[|cs| - 1]) < Distance(cs[b]) then |cs| - 1 else b
  }

  /** There is one first-nearest candidate, so any scan that finds one finds this one. */
  lemma FirstNearestUnique(cs: seq<int>, i: nat, j: nat)
    requires IsFirstNearest(cs, i) && IsFirstNearest(cs, j)
    ensures i == j
  {
    var di, dj := Distance(cs[i]), Distance(cs[j]);
    if i < j {
      assert false;
    } else if j < i {
      assert false;
    }
  }

  /** The sample in the source's comments: 248.2 V and a raw current of 16 give 397 and
      39 W, the other readings are 229, 153, 4 and 400, and 39 is chosen. */
  lemma SamplePower()
    ensures PvCandidates(248.2, 16.0, [229, 153, 4, 400]) == [397, 39, 229, 153, 4, 400]
    ensures NearestIndex([397, 39, 229, 153, 4, 400]) == 1
  {
    var cs := [397, 39, 229, 153, 4, 400];
    assert IsFirstNearest(cs, 1);
    FirstNearestUnique(cs, 1, NearestIndex(cs));
  }

  // ---- battery state and status flags ------------------------------------------------

  /** The battery state and power: charging wins over discharging, and idle means no
      power. */
  function Battery(charging: int, discharging: int, voltage: real): (r: (BatteryStatus, real))
    ensures r.0 == Charging <==> charging > 0
    ensures r.0 == Discharging <==> charging <= 0 && discharging > 0
    ensures r.0 == Idle <==> charging <= 0 && discharging <= 0
    ensures r.0 == Charging ==> r.1 == charging as real * voltage
    ensures r.0 == Discharging ==> r.1 == -(discharging as real * voltage)
    ensures r.0 == Idle ==> r.1 == 0.0
  {
    if charging > 0 then (Charging, charging as real * voltage)
    else if discharging > 0 then (Discharging, (-discharging) as real * voltage)
    else (Idle, 0.0)
  }

  /** With a positive battery voltage the sign of the power tells the state: energy
      flows in when charging, out when discharging, and not at all when idle. */
  lemma BatteryPowerSign(charging: int, discharging: int, voltage: real)
    requires voltage > 0.0
    ensures var (state, power) := Battery(charging, discharging, voltage);
      (power > 0.0 <==> state == Charging) &&
      (power < 0.0 <==> state == Discharging) &&
      (power == 0.0 <==> state == Idle)
  {
    var (state, power) := Battery(charging, discharging, voltage);
    if state == Charging {
      AtLeastOnce(charging as real, voltage);
    } else if state == Discharging {
      AtLeastOnce(discharging as real, voltage);
    }
  }

  lemma AtLeastOnce(c: real, v: real)
    requires c >= 1.0 && v > 0.0
    ensures c * v >= v
  {
    assert c * v - v == (c - 1.0) * v;
  }

  /** The operating mode, charging permission and load flag read from the status bits
      (positions 1, 2 and 5), present only when there are at least eight bits. */
  function StatusFlags(bits: string): (r: (Option<InverterMode>, Option<bool>, Option<bool>))
    ensures r.0.Some? <==> |bits| >= 8
    ensures r.1.Some? <==> |bits| >= 8
    ensures r.2.Some? <==> |bits| >= 8
  {
    if |bits| >= 8 then
      (Some(if bits[1] == '1' then OnBattery else OnGrid), Some(bits[2] == '1'), Some(bits[5] == '1'))
    else (None, None, None)
  }

  /** The status bits as the device writes them. */
  function StatusBits(flags: seq<bool>): (s: string)
    ensures |s| == |flags|
    ensures forall i :: 0 <= i < |s| ==> (s[i] == '1' <==> flags[i]) && (s[i] == '1' || s[i] == '0')
  {
    seq(|flags|, i requires 0 <= i < |flags| => if flags[i] then '1' else '0')
  }

  /** Decoding the device's status bits recovers bits 1, 2 and 5. */
  lemma FlagsOfBits(flags: seq<bool>)
    requires |flags| >= 8
    ensures StatusFlags(StatusBits(flags)) ==
      (Some(if flags[1] then OnBattery else OnGrid), Some(flags[2]), Some(flags[5]))
  {
  }

  // ---- the parser --------------------------------------------------------------------

  /** The derived fields of a record agree with its readings. */
  predicate Consistent(s: Status) {
    var cs := PvCandidates(s.pvInputVoltage, s.pvInputCurrent,
      [s.acOutputApparentPower, s.acOutputActivePower, s.loadPercent, s.busVoltage]);
    (exists i :: 0 <= i < |cs| && IsFirstNearest(cs, i) && cs[i] == s.pvInputPower) &&
    (s.batteryStatus, s.batteryPower) ==
      Battery(s.batteryChargingCurrent, s.batteryDischargeCurrent, s.batteryVoltage) &&
    (s.inverterMode, s.chargingEnabled, s.loadOn) == StatusFlags(s.deviceStatus)
  }

  /** The dictionary built from the readings and the status bits: it keeps every
      reading in its place, and its PV power, battery state and flags agree with them. */
  function Record(rs: seq<Reading>, bits: string): (s: Status)
    requires WellKinded(rs)
    ensures Readings(s) == rs
    ensures Consistent(s)
    ensures s.deviceStatus == bits
  {
    var voltage := rs[13].x;
    var current := rs[12].x;
    var cs := PvCandidates(voltage, current, [rs[4].n, rs[5].n, rs[6].n, rs[7].n]);
    var battery := Battery(rs[9].n, rs[15].n, rs[8].x);
    var flags := StatusFlags(bits);
    var s := Status(
      gridVoltage := rs[0].x,
      gridFrequency := rs[1].x,
      acOutputVoltage := rs[2].x,
      acOutputFrequency := rs[3].x,
      acOutputApparentPower := rs[4].n,
      acOutputActivePower := rs[5].n,
      loadPercent := rs[6].n,
      busVoltage := rs[7].n,
      batteryVoltage := rs[8].x,
      batteryChargingCurrent := rs[9].n,
      batteryCapacity := rs[10].n,
      inverterTemperature := rs[11].n,
      pvInputCurrent := current,
      pvInputVoltage := voltage,
      batterySccVoltage := rs[14].x,
      batteryDischargeCurrent := rs[15].n,
      deviceStatus := bits,
      pvInputPower := cs[NearestIndex(cs)],
      batteryStatus := battery.0,
      batteryPower := battery.1,
      inverterMode := flags.0,
      chargingEnabled := flags.1,
      loadOn := flags.2);
    assert forall i :: 0 <= i < NumericCount ==> Readings(s)[i] == rs[i];
    assert IsFirstNearest(cs, NearestIndex(cs));
    s
  }

  /** `parse_qpigs_response` once the reply is split into `values`, keeping the reason for
      a `None`. */
  function ParseValues(values: seq<string>): (r: Result<Status, ParseError>)
    ensures r == Err(TooFewFields(|values|)) <==> |values| < FieldCount
    ensures r.Ok? <==> |values| >= FieldCount && forall i :: 0 <= i < NumericCount ==> Readable(values, i)
    ensures r.Err? && r.error.Malformed? ==>
      var i := r.error.index;
      |values| >= FieldCount && i < NumericCount && !Readable(values, i) &&
      forall j :: 0 <= j < i ==> Readable(values, j)
    ensures r.Ok? ==> r.value.deviceStatus == values[StatusIndex]
  {
    if |values| < FieldCount then Err(TooFewFields(|values|))
    else
      var fields := values[..FieldCount];
      assert forall i :: 0 <= i < NumericCount ==> fields[i] == values[i];
      assert forall i :: 0 <= i < NumericCount ==> Readable(fields, i) == Readable(values, i);
      match ReadFields(fields, 0)
      case Err(i) => Err(Malformed(i))
      case Ok(rs) =>
        Ok(Record(rs, fields[StatusIndex]))
  }

  /** A record read from tokens holds the first sixteen as its readings, in order, and
      its derived fields agree with them. */
  lemma ParsedRecord(values: seq<string>)
    requires ParseValues(values).Ok?
    ensures var s := ParseValues(values).value;
      (forall i :: 0 <= i < NumericCount ==> ReadToken(values[i], KindAt(i)) == Some(Readings(s)[i])) &&
      Consistent(s)
  {
    var fields := values[..FieldCount];
    ParseValuesRecord(values);
    var rs := ReadFields(fields, 0).value;
    RecordOfFields(fields, rs, values[StatusIndex]);
    assert forall i :: 0 <= i < NumericCount ==> fields[i] == values[i];
  }

  /** What a successful parse builds: the record of the numbers read and token 16. */
  lemma ParseValuesRecord(values: seq<string>)
    requires ParseValues(values).Ok?
    ensures ParseValues(values) == Ok(Record(ReadFields(values[..FieldCount], 0).value, values[StatusIndex]))
  {
  }

  /** The record of the readings of some tokens holds each token's value. */
  lemma RecordOfFields(fields: seq<string>, rs: seq<Reading>, bits: string)
    requires |fields| >= NumericCount && ReadFields(fields, 0) == Ok(rs)
    ensures WellKinded(rs)
    ensures forall i :: 0 <= i < NumericCount ==> ReadToken(fields[i], KindAt(i)) == Some(Readings(Record(rs, bits))[i])
  {
  }

  /** `parse_qpigs_response(response)`: a record when the reply has at least 17 tokens and
      the first sixteen all read, holding each token's value and the derived fields that
      agree with them. */
  function Parse(response: string): (r: Result<Status, ParseError>)
    ensures |Split(response)| < FieldCount <==> r == Err(TooFewFields(|Split(response)|))
    ensures r.Ok? <==>
      |Split(response)| >= FieldCount && forall i :: 0 <= i < NumericCount ==> Readable(Split(response), i)
    ensures r.Ok? ==> Consistent(r.value) && r.value.deviceStatus == Split(response)[StatusIndex]
    ensures r.Ok? ==> forall i :: 0 <= i < NumericCount ==>
      ReadToken(Split(response)[i], KindAt(i)) == Some(Readings(r.value)[i])
  {
    var values := Split(response);
    if ParseValues(values).Ok? then
      ParsedRecord(values);
      ParseValues(values)
    else ParseValues(values)
  }

  /** The source reads the four readings among the PV candidates with `int(float(tok))`;
      on a token `int()` accepts that is the record's `int()` reading `n`. */
  lemma WholeTokenAsFloat(t: string, n: int)
    requires ReadToken(t, Whole) == Some(Int(n))
    ensures ParseFloat(t).Some? && Trunc(ParseFloat(t).value) == n
  {
    IntIsFloat(t);
  }

  // ---- what the parser promises about whole replies ----------------------------------

  /** Tokens after the seventeenth are never read. */
  lemma ExtraTokensIgnored(values: seq<string>, extra: seq<string>)
    requires |values| >= FieldCount
    ensures ParseValues(values + extra) == ParseValues(values)
  {
    assert (values + extra)[..FieldCount] == values[..FieldCount];
  }

  /** The same for replies: whatever tokens follow the status bits, the record is the
      same. */
  lemma ExtraTextIgnored(ts: seq<string>, extra: seq<string>)
    requires AllTokens(ts) && AllTokens(extra) && |ts| >= FieldCount
    ensures Parse(Join(ts + extra)) == Parse(Join(ts))
  {
    assert AllTokens(ts + extra);
    SplitJoin(ts + extra);
    SplitJoin(ts);
    ExtraTokensIgnored(ts, extra);
  }

  /** A reply of fewer than seventeen tokens gives no record, and the count is kept. */
  lemma ShortReply(ts: seq<string>)
    requires AllTokens(ts) && |ts| < FieldCount
    ensures Parse(Join(ts)) == Err(TooFewFields(|ts|))
  {
    SplitJoin(ts);
  }

  /** Token 16 only decides the status bits and the three flags: a reply that differs
      from a parsed one at most in that token parses to a record with the same readings,
      PV power and battery state. */
  lemma StatusBitsOnlyFlags(values: seq<string>, values': seq<string>)
    requires ParseValues(values).Ok? && |values'| == |values|
    requires forall i :: 0 <= i < |values| && i != StatusIndex ==> values'[i] == values[i]
    ensures var r := ParseValues(values');
      var s := ParseValues(values).value;
      r.Ok? &&
      Readings(r.value) == Readings(s) &&
      r.value.pvInputPower == s.pvInputPower &&
      (r.value.batteryStatus, r.value.batteryPower) == (s.batteryStatus, s.batteryPower) &&
      r.value.deviceStatus == values'[StatusIndex] &&
      (r.value.inverterMode, r.value.chargingEnabled, r.value.loadOn) == StatusFlags(values'[StatusIndex])
  {
    assert forall i :: 0 <= i < NumericCount ==> values'[i] == values[i];
    SameNumbersSameDerived(values, values');
  }

  /** Replies that agree on tokens 0 to 15 both parse, with the same readings, PV power
      and battery state, once one of them does. */
  lemma SameNumbersSameDerived(values: seq<string>, values': seq<string>)
    requires ParseValues(values).Ok? && |values'| == |values|
    requires forall i :: 0 <= i < NumericCount ==> values'[i] == values[i]
    ensures var r := ParseValues(values');
      var s := ParseValues(values).value;
      r.Ok? && Consistent(r.value) &&
      Readings(r.value) == Readings(s) &&
      r.value.pvInputPower == s.pvInputPower &&
      (r.value.batteryStatus, r.value.batteryPower) == (s.batteryStatus, s.batteryPower)
  {
    assert forall i :: 0 <= i < NumericCount ==> Readable(values', i) == Readable(values, i);
    SameNumbersSameReadings(values, values');
    SameReadingsSameDerived(ParseValues(values).value, ParseValues(values').value);
  }

  /** Replies that agree on tokens 0 to 15 give records with the same readings. */
  lemma SameNumbersSameReadings(values: seq<string>, values': seq<string>)
    requires ParseValues(values).Ok? && ParseValues(values').Ok?
    requires forall i :: 0 <= i < NumericCount ==> values'[i] == values[i]
    ensures Readings(ParseValues(values').value) == Readings(ParseValues(values).value)
    ensures Consistent(ParseValues(values).value) && Consistent(ParseValues(values').value)
  {
    ParsedRecord(values);
    ParsedRecord(values');
    var r, r' := Readings(ParseValues(values).value), Readings(ParseValues(values').value);
    forall i | 0 <= i < NumericCount
      ensures r'[i] == r[i]
    {
      assert Some(r'[i]) == ReadToken(values[i], KindAt(i)) == Some(r[i]);
    }
  }

  /** Two consistent records with the same readings have the same PV power and battery
      state. */
  lemma SameReadingsSameDerived(s: Status, s': Status)
    requires Consistent(s) && Consistent(s') && Readings(s) == Readings(s')
    ensures s.pvInputPower == s'.pvInputPower
    ensures (s.batteryStatus, s.batteryPower) == (s'.batteryStatus, s'.batteryPower)
  {
    assert Readings(s)[4] == Readings(s')[4] && Readings(s)[5] == Readings(s')[5];
    assert Readings(s)[6] == Readings(s')[6] && Readings(s)[7] == Readings(s')[7];
    assert Readings(s)[8] == Readings(s')[8] && Readings(s)[9] == Readings(s')[9];
    assert Readings(s)[12] == Readings(s')[12] && Readings(s)[13] == Readings(s')[13];
    assert Readings(s)[15] == Readings(s')[15];
    var cs := PvCandidates(s.pvInputVoltage, s.pvInputCurrent,
      [s.acOutputApparentPower, s.acOutputActivePower, s.loadPercent, s.busVoltage]);
    var i :| 0 <= i < |cs| && IsFirstNearest(cs, i) && cs[i] == s.pvInputPower;
    var i' :| 0 <= i' < |cs| && IsFirstNearest(cs, i') && cs[i'] == s'.pvInputPower;
    FirstNearestUnique(cs, i, i');
  }

  /** Reading the numbers looks at tokens 0 to 15 only. */
  lemma {:induction false} ReadFieldsFromNumbers(fields: seq<string>, fields': seq<string>, from: nat)
    requires |fields| >= NumericCount && |fields'| >= NumericCount && from <= NumericCount
    requires forall i :: from <= i < NumericCount ==> fields[i] == fields'[i]
    ensures ReadFields(fields, from) == ReadFields(fields', from)
    decreases NumericCount - from
  {
    if from < NumericCount {
      ReadFieldsFromNumbers(fields, fields', from + 1);
    }
  }

  /** A reading as the device writes it: the decimal `mantissa / 10^decimals`, with `pad`
      extra leading zeros and `decimals` digits after the point (`0229` is
      `Quantity(229, 1, 0)`, `000.0` is `Quantity(0, 2, 1)`). */
  datatype Quantity = Quantity(mantissa: int, pad: nat, decimals: nat)

  function QuantityText(q: Quantity): string {
    FixedPoint(q.mantissa, q.pad, q.decimals)
  }

  /** The value Python holds for a quantity read as `kind`. */
  function QuantityReading(q: Quantity, kind: Kind): Reading {
    match kind
    case Whole => Int(q.mantissa)
    case Decimal => Dec(q.mantissa as real / Pow10(q.decimals) as real)
  }

  /** The device's numbers never contain whitespace. */
  lemma QuantityIsToken(q: Quantity)
    ensures IsToken(QuantityText(q))
  {
    FixedPointChars(q.mantissa, q.pad, q.decimals);
  }

  /** `float()` and `int()` read back a number the device writes (`int()` only when it
      has no decimals and no more digits than `int()` converts; past that it raises). */
  lemma QuantityReads(q: Quantity, kind: Kind)
    requires kind == Whole ==> q.decimals == 0
    ensures kind == Decimal || WholeDigits(q.mantissa, q.pad) <= MaxIntDigits ==>
      ReadToken(QuantityText(q), kind) == Some(QuantityReading(q, kind))
    ensures kind == Whole && WholeDigits(q.mantissa, q.pad) > MaxIntDigits ==>
      ReadToken(QuantityText(q), kind) == None
  {
    if kind == Whole {
      ParseFixedPointWhole(q.mantissa, q.pad);
    } else {
      ParseFixedPoint(q.mantissa, q.pad, q.decimals);
    }
  }

  /** Sixteen numbers, whole and within `int()`'s digit limit where `int()` reads them. */
  predicate Fits(qs: seq<Quantity>) {
    |qs| == NumericCount &&
    forall i :: 0 <= i < NumericCount ==> KindAt(i) == Whole ==>
      qs[i].decimals == 0 && WholeDigits(qs[i].mantissa, qs[i].pad) <= MaxIntDigits
  }

  /** The tokens of a reply: the numbers, the status bits, anything else. */
  function LineTokens(qs: seq<Quantity>, bits: string, extra: seq<string>): (ts: seq<string>)
    requires |qs| == NumericCount
    ensures |ts| == FieldCount + |extra| && ts[StatusIndex] == bits && ts[FieldCount..] == extra
    ensures forall i :: 0 <= i < NumericCount ==> ts[i] == QuantityText(qs[i])
  {
    seq(NumericCount, i requires 0 <= i < NumericCount => QuantityText(qs[i])) + [bits] + extra
  }

  /** A reply the device writes is read back: each number in its place, the status bits
      kept, the derived fields consistent with the numbers, and whatever follows ignored. */
  lemma ParseLine(qs: seq<Quantity>, bits: string, extra: seq<string>)
    requires Fits(qs) && IsToken(bits) && AllTokens(extra)
    ensures var r := Parse(Join(LineTokens(qs, bits, extra)));
      r.Ok? &&
      (forall i :: 0 <= i < NumericCount ==> Readings(r.value)[i] == QuantityReading(qs[i], KindAt(i))) &&
      r.value.deviceStatus == bits && Consistent(r.value)
  {
    var ts := LineTokens(qs, bits, extra);
    forall i | 0 <= i < |ts|
      ensures IsToken(ts[i])
    {
      if i < NumericCount {
        QuantityIsToken(qs[i]);
      } else if i > StatusIndex {
        assert ts[i] == extra[i - FieldCount];
      }
    }
    SplitJoin(ts);
    forall i | 0 <= i < NumericCount
      ensures Readable(ts, i) && ReadToken(ts[i], KindAt(i)) == Some(QuantityReading(qs[i], KindAt(i)))
    {
      QuantityReads(qs[i], KindAt(i));
    }
    ParsedRecord(ts);
  }

  /** A number with decimals where `int()` reads it discards the whole record, as
      `int('54.40')` raises. */
  lemma DecimalsInWholeSlot(qs: seq<Quantity>, bits: string, extra: seq<string>, i: nat)
    requires |qs| == NumericCount && i < NumericCount && KindAt(i) == Whole && qs[i].decimals > 0
    ensures var r := ParseValues(LineTokens(qs, bits, extra));
      r.Err? && r.error.Malformed? && r.error.index <= i
  {
    var ts := LineTokens(qs, bits, extra);
    FixedPointChars(qs[i].mantissa, qs[i].pad, qs[i].decimals);
    var t := ts[i];
    var p :| 0 <= p < |t| && t[p] == '.';
    ParseIntRejectsPoint(t, p);
    assert !Readable(ts, i);
  }

  /** A whole number with more digits, leading zeros included, than `int()` converts
      discards the whole record, as `int()` raises `ValueError`. */
  lemma LongTokenInWholeSlot(qs: seq<Quantity>, bits: string, extra: seq<string>, i: nat)
    requires |qs| == NumericCount && i < NumericCount && KindAt(i) == Whole
    requires qs[i].decimals == 0 && WholeDigits(qs[i].mantissa, qs[i].pad) > MaxIntDigits
    ensures var r := ParseValues(LineTokens(qs, bits, extra));
      r.Err? && r.error.Malformed? && r.error.index <= i
  {
    var ts := LineTokens(qs, bits, extra);
    QuantityReads(qs[i], Whole);
    assert !Readable(ts, i);
  }

  /** A reply with the sample's numbers where the derived fields look: charging at 16 A
      and 54.40 V, PV 248.2 V and a raw current of 16, candidates 229, 153, 4 and 400, no
      discharge current, and fewer than eight status bits. */
  lemma SampleReading(qs: seq<Quantity>, bits: string)
    requires Fits(qs) && IsToken(bits) && |bits| < 8
    requires qs[4] == Quantity(229, 1, 0) && qs[5] == Quantity(153, 1, 0) && qs[6] == Quantity(4, 2, 0)
    requires qs[7] == Quantity(400, 0, 0) && qs[8] == Quantity(5440, 0, 2) && qs[9] == Quantity(16, 1, 0)
    requires qs[12] == Quantity(16, 2, 0) && qs[13] == Quantity(2482, 0, 1) && qs[15] == Quantity(0, 4, 0)
    ensures var r := Parse(Join(LineTokens(qs, bits, [])));
      r.Ok? &&
      r.value.batteryStatus == Charging && r.value.batteryPower == 870.4 &&
      r.value.pvInputPower == 39 &&
      r.value.inverterMode.None? && r.value.chargingEnabled.None? && r.value.loadOn.None?
  {
    ParseLine(qs, bits, []);
    var s := Parse(Join(LineTokens(qs, bits, []))).value;
    SampleFields(qs, s);
    SampleDerived(s);
  }

  /** The fields of a record that holds the sample's numbers. */
  lemma SampleFields(qs: seq<Quantity>, s: Status)
    requires |qs| == NumericCount
    requires forall i :: 0 <= i < NumericCount ==> Readings(s)[i] == QuantityReading(qs[i], KindAt(i))
    requires qs[4] == Quantity(229, 1, 0) && qs[5] == Quantity(153, 1, 0) && qs[6] == Quantity(4, 2, 0)
    requires qs[7] == Quantity(400, 0, 0) && qs[8] == Quantity(5440, 0, 2) && qs[9] == Quantity(16, 1, 0)
    requires qs[12] == Quantity(16, 2, 0) && qs[13] == Quantity(2482, 0, 1) && qs[15] == Quantity(0, 4, 0)
    ensures s.acOutputApparentPower == 229 && s.acOutputActivePower == 153
    ensures s.loadPercent == 4 && s.busVoltage == 400
    ensures s.batteryVoltage == 54.4 && s.batteryChargingCurrent == 16 && s.batteryDischargeCurrent == 0
    ensures s.pvInputCurrent == 16.0 && s.pvInputVoltage == 248.2
  {
    SampleDecimals();
    var rs := Readings(s);
    assert rs[4] == Int(229) && rs[5] == Int(153) && rs[6] == Int(4) && rs[7] == Int(400);
    assert rs[8] == Dec(54.4) && rs[9] == Int(16) && rs[15] == Int(0);
    assert rs[12] == Dec(16.0) && rs[13] == Dec(248.2);
  }

  /** What a consistent record with the sample's numbers derives: charging at
      16 A × 54.4 V = 870.4 W, a PV power of 39 W, and no flags from short status bits. */
  lemma SampleDerived(s: Status)
    requires Consistent(s)
    requires s.acOutputApparentPower == 229 && s.acOutputActivePower == 153
    requires s.loadPercent == 4 && s.busVoltage == 400
    requires s.batteryVoltage == 54.4 && s.batteryChargingCurrent == 16
    requires s.pvInputCurrent == 16.0 && s.pvInputVoltage == 248.2 && |s.deviceStatus| < 8
    ensures s.batteryStatus == Charging && s.batteryPower == 870.4 && s.pvInputPower == 39
    ensures s.inverterMode.None? && s.chargingEnabled.None? && s.loadOn.None?
  {
    var cs := PvCandidates(s.pvInputVoltage, s.pvInputCurrent,
      [s.acOutputApparentPower, s.acOutputActivePower, s.loadPercent, s.busVoltage]);
    SamplePower();
    assert cs == [397, 39, 229, 153, 4, 400];
    var i :| 0 <= i < |cs| && IsFirstNearest(cs, i) && cs[i] == s.pvInputPower;
    FirstNearestUnique(cs, i, NearestIndex(cs));
  }

  /** The decimal readings of the sample. */
  lemma SampleDecimals()
    ensures QuantityReading(Quantity(5440, 0, 2), Decimal) == Dec(54.4)
    ensures QuantityReading(Quantity(16, 2, 0), Decimal) == Dec(16.0)
    ensures QuantityReading(Quantity(2482, 0, 1), Decimal) == Dec(248.2)
  {
  }

  /** The text of a non-negative quantity from its whole part and its decimals. */
  lemma QuantityTextOf(m: nat, pad: nat, k: nat, q: nat, r: nat, whole: string, frac: string)
    requires Shift(m, k) == (q, r) && WholePart(q, pad) == whole
    requires k == 0 ==> frac == ""
    requires k > 0 ==> Padded(r, k) == frac
    ensures QuantityText(Quantity(m, pad, k)) == if k == 0 then whole else whole + "." + frac
  {
    assert QuantityText(Quantity(m, pad, k)) == FixedPoint(m, pad, k);
    assert FixedPoint(m, pad, k) == whole + (if k == 0 then "" else "." + frac);
    if k == 0 {
      assert whole + "" == whole;
    } else {
      assert whole + ("." + frac) == whole + "." + frac;
    }
  }

  /** Zero, as the device writes it, is zeros only: `pad + 1` of them, then, when there
      are decimals, a point and `k` more, as in `000.0`, `00.0`, `00.00` and `00000`. */
  lemma ZeroText(pad: nat, k: nat)
    ensures var s := QuantityText(Quantity(0, pad, k));
      |s| == pad + 1 + (if k == 0 then 0 else k + 1) &&
      forall i :: 0 <= i < |s| ==> s[i] == if i == pad + 1 then '.' else '0'
  {
    var qr := Shift(0, k);
    assert qr == (0, 0);
    PaddedZero(pad);
    PaddedZero(k);
    var whole := WholePart(0, pad);
    assert whole == Padded(0, pad) + "0";
  }

  // The non-zero numbers of the sample reply print as its tokens, leading zeros and all;
  // its zeros are `ZeroText`.

  lemma SampleText2()
    ensures QuantityText(Quantity(2299, 0, 1)) == "229.9"
  {
    QuantityTextOf(2299, 0, 1, 229, 9, "229", "9");
  }

  lemma SampleText3()
    ensures QuantityText(Quantity(500, 0, 1)) == "50.0"
  {
    QuantityTextOf(500, 0, 1, 50, 0, "50", "0");
  }

  lemma SampleText4()
    ensures QuantityText(Quantity(229, 1, 0)) == "0229"
  {
    QuantityTextOf(229, 1, 0, 229, 0, "0229", "");
  }

  lemma SampleText5()
    ensures QuantityText(Quantity(153, 1, 0)) == "0153"
  {
    QuantityTextOf(153, 1, 0, 153, 0, "0153", "");
  }

  lemma SampleText6()
    ensures QuantityText(Quantity(4, 2, 0)) == "004"
  {
    QuantityTextOf(4, 2, 0, 4, 0, "004", "");
  }

  lemma SampleText7()
    ensures QuantityText(Quantity(400, 0, 0)) == "400"
  {
    QuantityTextOf(400, 0, 0, 400, 0, "400", "");
  }

  lemma SampleText8()
    ensures QuantityText(Quantity(5440, 0, 2)) == "54.40"
  {
    QuantityTextOf(5440, 0, 2, 54, 40, "54", "40");
  }

  lemma SampleText9()
    ensures QuantityText(Quantity(16, 1, 0)) == "016"
  {
    QuantityTextOf(16, 1, 0, 16, 0, "016", "");
  }

  lemma SampleText10()
    ensures QuantityText(Quantity(72, 1, 0)) == "072"
  {
    QuantityTextOf(72, 1, 0, 72, 0, "072", "");
  }

  lemma SampleText11()
    ensures QuantityText(Quantity(45, 2, 0)) == "0045"
  {
    QuantityTextOf(45, 2, 0, 45, 0, "0045", "");
  }

  lemma SampleText12()
    ensures QuantityText(Quantity(16, 2, 0)) == "0016"
  {
    QuantityTextOf(16, 2, 0, 16, 0, "0016", "");
  }

  lemma SampleText13()
    ensures QuantityText(Quantity(2482, 0, 1)) == "248.2"
  {
    QuantityTextOf(2482, 0, 1, 248, 2, "248", "2");
  }

  /** The sample's whole numbers have no decimals and at most seven digits. */
  lemma SampleFits(qs: seq<Quantity>)
    requires |qs| == NumericCount
    requires qs[4] == Quantity(229, 1, 0) && qs[5] == Quantity(153, 1, 0) && qs[6] == Quantity(4, 2, 0)
    requires qs[7] == Quantity(400, 0, 0) && qs[9] == Quantity(16, 1, 0) && qs[10] == Quantity(72, 1, 0)
    requires qs[11] == Quantity(45, 2, 0) && qs[15] == Quantity(0, 4, 0)
    ensures Fits(qs)
  {
    assert Pow10(3) == 1000;
    forall i | 0 <= i < NumericCount && KindAt(i) == Whole
      ensures qs[i].decimals == 0 && WholeDigits(qs[i].mantissa, qs[i].pad) <= MaxIntDigits
    {
      assert qs[i].decimals == 0 && 0 <= qs[i].mantissa < 1000 && qs[i].pad <= 4;
      WholeDigitsAtMost(qs[i].mantissa, qs[i].pad, 3);
    }
  }

  /** The sample reply in the source's comments,
      `000.0 00.0 229.9 50.0 0229 0153 004 400 54.40 016 072 0045 0016 248.2 00.00 00000 00010`:
      its sixteen numbers, which `SampleText2` to `SampleText13` and `ZeroText` print as those tokens, and its status
      bits give a record where the battery is charging at 16 A and 54.40 V, so 870.4 W; the PV power
      guessed is 39 W; and five status bits are too few for flags. */
  lemma SampleLine(qs: seq<Quantity>, bits: string)
    requires |qs| == NumericCount && bits == "00010"
    requires qs[0] == Quantity(0, 2, 1) && qs[1] == Quantity(0, 1, 1) && qs[2] == Quantity(2299, 0, 1)
    requires qs[3] == Quantity(500, 0, 1) && qs[4] == Quantity(229, 1, 0) && qs[5] == Quantity(153, 1, 0)
    requires qs[6] == Quantity(4, 2, 0) && qs[7] == Quantity(400, 0, 0) && qs[8] == Quantity(5440, 0, 2)
    requires qs[9] == Quantity(16, 1, 0) && qs[10] == Quantity(72, 1, 0) && qs[11] == Quantity(45, 2, 0)
    requires qs[12] == Quantity(16, 2, 0) && qs[13] == Quantity(2482, 0, 1) && qs[14] == Quantity(0, 1, 2)
    requires qs[15] == Quantity(0, 4, 0)
    ensures var r := Parse(Join(LineTokens(qs, bits, [])));
      r.Ok? &&
      r.value.batteryStatus == Charging && r.value.batteryPower == 870.4 &&
      r.value.pvInputPower == 39 &&
      r.value.inverterMode.None? && r.value.chargingEnabled.None? && r.value.loadOn.None?
  {
    SampleFits(qs);
    SampleReading(qs, bits);
  }
}

=== FILE: supervisor.dfy ===
/** Connection supervision: the retry budget of `connect_serial` and the error counter of
    the main loop of `run`, over the outcomes the serial port, the device and the broker
    produce. Sleeps become `Wait` marks; logging is not modelled. */
module Supervisor {
  import opened Common
  import opened Framing
  import opened Qpigs

  /** Attempts `connect_serial` makes before giving up. */
  const MaxRetries: nat := 5

  /** Failed ticks after which the loop reconnects. */
  const MaxErrors: nat := 5

  /** The query used both to probe a fresh connection and to poll the device. */
  const ProbeCommand: string := "QPIGS"

  // ---- connect_serial ----------------------------------------------------------------

  /** What one attempt to open the port met: `serial.Serial(...)` raised, or the port
      opened and the QPIGS probe's `send_command` returned `probe`. */
  datatype Attempt = OpenFailed | Opened(probe: Option<string>)

  /** The probe's reply is truthy: a non-empty string. */
  predicate Answers(a: Attempt) {
    a.Opened? && !NoResponse(a.probe)
  }

  /** The probe `send_command` makes on a freshly opened port, given the bytes the read
      loop collected (`None` when the line raised). */
  function Probe(received: Option<seq<byte>>): Option<string> {
    SendCommand(true, ProbeCommand, received)
  }

  lemma ProbeIsAscii()
    ensures IsAscii(ProbeCommand)
  {
  }

  /** On an open port, an ASCII command is answered exactly when bytes arrived that
      de-frame to a non-empty string; so a probe is answered exactly then. */
  lemma AnsweredCommand(cmd: string, received: Option<seq<byte>>)
    requires IsAscii(cmd)
    ensures !NoResponse(SendCommand(true, cmd, received)) <==>
      received.Some? && !NoResponse(Deframe(received.value))
  {
    if received.Some? && |received.value| == 0 {
      assert Deframe(received.value) == None;
    }
  }

  /** A probe is answered exactly when bytes arrived that de-frame to a non-empty
      string. */
  lemma ProbeAnswered(received: Option<seq<byte>>)
    ensures Answers(Opened(Probe(received))) <==> received.Some? && !NoResponse(Deframe(received.value))
  {
    ProbeIsAscii();
    AnsweredCommand(ProbeCommand, received);
  }

  /** One pass of the retry loop: whether it closed the previous handle first, what the
      attempt met, and whether the loop slept before the next attempt. */
  datatype Try = Try(closedPrevious: bool, outcome: Attempt, waitedAfter: bool)

  /** What `connect_serial` returned, the passes it made, and whether `serial_conn` is
      set afterwards. */
  datatype Connection = Connection(connected: bool, tries: seq<Try>, handle: bool)

  /** `serial_conn` is set before attempt `i`: it was set on entry, or an earlier attempt
      opened the port (a failed open leaves the old object in place). */
  predicate HadHandle(onEntry: bool, outcomes: seq<Attempt>, i: nat)
    requires i <= |outcomes|
  {
    onEntry || exists j :: 0 <= j < i && outcomes[j].Opened?
  }

  /** The first attempt from `from` on whose probe is answered. */
  function FirstAnswer(outcomes: seq<Attempt>, from: nat): (r: Option<nat>)
    requires from <= |outcomes|
    ensures r.None? <==> forall j :: from <= j < |outcomes| ==> !Answers(outcomes[j])
    ensures r.Some? ==> from <= r.value < |outcomes| && Answers(outcomes[r.value])
    ensures r.Some? ==> forall j :: from <= j < r.value ==> !Answers(outcomes[j])
    decreases |outcomes| - from
  {
    if from == |outcomes| then None
    else if Answers(outcomes[from]) then Some(from)
    else FirstAnswer(outcomes, from + 1)
  }

  /** `connect_serial`, given the outcome each of the five attempts would meet and whether
      `serial_conn` is set on entry. */
  method ConnectSerial(onEntry: bool, outcomes: seq<Attempt>) returns (c: Connection)
    requires |outcomes| == MaxRetries
    ensures 1 <= |c.tries| <= MaxRetries
    ensures c.connected <==> FirstAnswer(outcomes, 0).Some?
    ensures c.connected ==> |c.tries| == FirstAnswer(outcomes, 0).value + 1
    ensures !c.connected ==> |c.tries| == MaxRetries
    ensures forall i :: 0 <= i < |c.tries| ==> c.tries[i].outcome == outcomes[i]
    ensures forall i :: 0 <= i < |c.tries| ==> (c.tries[i].closedPrevious <==> HadHandle(onEntry, outcomes, i))
    ensures forall i :: 0 <= i < |c.tries| ==> (c.tries[i].waitedAfter <==> i < |c.tries| - 1)
    ensures c.handle <==> HadHandle(onEntry, outcomes, |c.tries|)
  {
    var retry := 0;
    var handle := onEntry;
    var tries: seq<Try> := [];
    while retry < MaxRetries
      invariant 0 <= retry <= MaxRetries && |tries| == retry
      invariant handle <==> HadHandle(onEntry, outcomes, retry)
      invariant forall j :: 0 <= j < retry ==> !Answers(outcomes[j])
      invariant forall j :: 0 <= j < retry ==> tries[j].outcome == outcomes[j]
      invariant forall j :: 0 <= j < retry ==> (tries[j].closedPrevious <==> HadHandle(onEntry, outcomes, j))
      invariant forall j :: 0 <= j < retry ==> (tries[j].waitedAfter <==> j < MaxRetries - 1)
      decreases MaxRetries - retry
    {
      var closed := handle;
      var outcome := outcomes[retry];
      if outcome.Opened? {
        handle := true;
        if Answers(outcome) {
          tries := tries + [Try(closed, outcome, false)];
          assert FirstAnswer(outcomes, retry) == Some(retry);
          FirstAnswerSkips(outcomes, 0, retry);
          return Connection(true, tries, handle);
        }
      }
      tries := tries + [Try(closed, outcome, retry + 1 < MaxRetries)];
      retry := retry + 1;
    }
    FirstAnswerSkips(outcomes, 0, retry);
    return Connection(false, tries, handle);
  }

  /** Attempts before `to` that were not answered do not change the first answer. */
  lemma {:induction false} FirstAnswerSkips(outcomes: seq<Attempt>, from: nat, to: nat)
    requires from <= to <= |outcomes|
    requires forall j :: from <= j < to ==> !Answers(outcomes[j])
    ensures FirstAnswer(outcomes, from) == FirstAnswer(outcomes, to)
    decreases (to as int) - (from as int)
  {
    if from < to {
      FirstAnswerSkips(outcomes, from + 1, to);
    }
  }

  /** The number of sleeps between attempts. */
  function Waits(tries: seq<Try>): (n: nat)
    ensures n <= |tries|
  {
    if |tries| == 0 then 0 else (if tries[0].waitedAfter then 1 else 0) + Waits(tries[1..])
  }

  /** The loop sleeps between attempts and never after the last: one sleep fewer than
      attempts, so at most four. */
  lemma {:induction false} WaitsBetweenAttempts(tries: seq<Try>)
    requires |tries| > 0
    requires forall i :: 0 <= i < |tries| ==> (tries[i].waitedAfter <==> i < |tries| - 1)
    ensures Waits(tries) == |tries| - 1
    decreases |tries|
  {
    if |tries| > 1 {
      WaitsBetweenAttempts(tries[1..]);
    }
  }

  // ---- the error counter of run -----------------------------------------------------

  /** What the monitor sends to the broker, and the reconnects it makes. */
  datatype Event = PublishData(status: Status) | Offline | Online | Reconnect

  /** One pass of the main loop as the counter sees it: a record was read, the reply was
      falsy (`None` or empty), the parser refused it, or an exception escaped the body
      (publishing the data raised) before the counter was touched. */
  datatype Tick = Data(status: Status) | NoReply | Unparsable | Raised

  /** The tick a QPIGS reply gives. */
  function Observe(response: Option<string>): (t: Tick)
    ensures t.NoReply? <==> NoResponse(response)
    ensures t.Unparsable? <==> !NoResponse(response) && Parse(response.value).ToOption() == None
    ensures t.Data? <==> !NoResponse(response) && Parse(response.value).Ok?
    ensures t.Data? ==> Parse(response.value).ToOption() == Some(t.status)
    ensures t != Raised
  {
    if NoResponse(response) then NoReply
    else match Parse(response.value).ToOption()
      case Some(s) => Data(s)
      case None => Unparsable
  }

  predicate Succeeds(t: Tick) {
    t.Data?
  }

  /** A pass that counts as an error and runs the threshold check. */
  predicate Fails(t: Tick) {
    t.NoReply? || t.Unparsable?
  }

  /** The loop state: `error_count`. One pass given the tick and, when the threshold is
      reached, what `connect_serial` returns; the new counter and what was emitted. */
  function Step(count: nat, tick: Tick, reconnected: bool): (r: (nat, seq<Event>))
    ensures tick == Raised ==> r == (count + 1, [])
    ensures Succeeds(tick) ==> r == (0, [PublishData(tick.status)])
    ensures Fails(tick) && count + 1 < MaxErrors ==> r == (count + 1, [])
    ensures Fails(tick) && count + 1 >= MaxErrors ==>
      r == (if reconnected then (0, [Offline, Reconnect, Online]) else (count + 1, [Offline, Reconnect]))
  {
    match tick
    case Raised => (count + 1, [])
    // a record resets the counter, so the threshold check that follows cannot fire
    case Data(s) => (0, [PublishData(s)])
    case _ =>
      if count + 1 < MaxErrors then (count + 1, [])
      else if reconnected then (0, [Offline, Reconnect, Online])
      else (count + 1, [Offline, Reconnect])
  }

  /** A run of passes: each tick with what a reconnect at that pass would return. */
  function Run(count: nat, ticks: seq<(Tick, bool)>): (r: (nat, seq<Event>))
    ensures r.0 <= count + |ticks|
    ensures |ticks| > 0 && Succeeds(ticks[|ticks| - 1].0) ==> r.0 == 0
    ensures |r.1| <= 3 * |ticks|
    decreases |ticks|
  {
    if |ticks| == 0 then (count, [])
    else
      var first := Step(count, ticks[0].0, ticks[0].1);
      var rest := Run(first.0, ticks[1..]);
      (rest.0, first.1 + rest.1)
  }

  /** What `run` publishes when `connect_serial` fails at start-up: offline, and the loop
      never starts. */
  function Startup(connected: bool): (evs: seq<Event>)
    ensures connected <==> evs == []
    ensures !connected ==> evs == [Offline]
  {
    if connected then [] else [Offline]
  }

  /** The counter after a run without successful reconnects counts the failed and raised
      passes since the last successful one, or since the start. */
  function FailuresSinceSuccess(count: nat, ticks: seq<(Tick, bool)>): nat
    decreases |ticks|
  {
    if |ticks| == 0 then count
    else if Succeeds(ticks[|ticks| - 1].0) then 0
    else FailuresSinceSuccess(count, ticks[..|ticks| - 1]) + 1
  }

  predicate NoReconnectSucceeds(ticks: seq<(Tick, bool)>) {
    forall i :: 0 <= i < |ticks| ==> !ticks[i].1
  }

  lemma {:induction false} RunAppend(count: nat, a: seq<(Tick, bool)>, b: seq<(Tick, bool)>)
    ensures Run(count, a + b) == (Run(Run(count, a).0, b).0, Run(count, a).1 + Run(Run(count, a).0, b).1)
    decreases |a|
  {
    if |a| == 0 {
      assert a + b == b;
      assert [] + Run(count, b).1 == Run(count, b).1;
    } else {
      assert (a + b)[0] == a[0];
      assert (a + b)[1..] == a[1..] + b;
      var first := Step(count, a[0].0, a[0].1);
      RunAppend(first.0, a[1..], b);
      var mid := Run(first.0, a[1..]);
      var last := Run(mid.0, b);
      var whole := Run(first.0, a[1..] + b);
      assert whole == (last.0, mid.1 + last.1);
      assert Run(count, a) == (mid.0, first.1 + mid.1);
      assert Run(count, a + b) == (whole.0, first.1 + whole.1);
      assert first.1 + (mid.1 + last.1) == (first.1 + mid.1) + last.1;
    }
  }

  /** While reconnects fail, the counter is the number of failed or raised passes since
      the last successful one. */
  lemma {:induction false} CounterCountsFailures(count: nat, ticks: seq<(Tick, bool)>)
    requires NoReconnectSucceeds(ticks)
    ensures Run(count, ticks).0 == FailuresSinceSuccess(count, ticks)
    decreases |ticks|
  {
    if |ticks| > 0 {
      var init := ticks[..|ticks| - 1];
      var last := ticks[|ticks| - 1];
      assert ticks == init + [last];
      assert NoReconnectSucceeds(init);
      CounterCountsFailures(count, init);
      RunAppend(count, init, [last]);
      assert [last][1..] == [];
    }
  }

  /** Fewer than five failed or raised passes in a row publish nothing. */
  lemma {:induction false} QuietBelowThreshold(count: nat, ticks: seq<(Tick, bool)>)
    requires forall i :: 0 <= i < |ticks| ==> !Succeeds(ticks[i].0)
    requires count + |ticks| < MaxErrors
    ensures Run(count, ticks) == (count + |ticks|, [])
    decreases |ticks|
  {
    if |ticks| > 0 {
      assert Step(count, ticks[0].0, ticks[0].1) == (count + 1, []);
      QuietBelowThreshold(count + 1, ticks[1..]);
      assert [] + Run(count + 1, ticks[1..]).1 == [];
    }
  }

  /** `k` copies of the events of a failed reconnect. */
  function OfflineRepeated(k: nat): seq<Event> {
    if k == 0 then [] else [Offline, Reconnect] + OfflineRepeated(k - 1)
  }

  /** Once the counter has reached the threshold, every failed pass publishes offline
      again and reconnects, for as long as the reconnects fail: offline is not published
      once per outage but once per failed pass. */
  lemma {:induction false} OfflineRepublished(count: nat, ticks: seq<(Tick, bool)>)
    requires count + 1 >= MaxErrors
    requires forall i :: 0 <= i < |ticks| ==> Fails(ticks[i].0) && !ticks[i].1
    ensures Run(count, ticks) == (count + |ticks|, OfflineRepeated(|ticks|))
    decreases |ticks|
  {
    if |ticks| > 0 {
      OfflineRepublished(count + 1, ticks[1..]);
    }
  }

  /** Raised passes count as errors but never trigger the reconnect themselves, however
      high the counter gets; the next failed reply does. */
  lemma {:induction false} RaisedSkipsThreshold(count: nat, ticks: seq<(Tick, bool)>)
    requires forall i :: 0 <= i < |ticks| ==> ticks[i].0 == Raised
    ensures Run(count, ticks) == (count + |ticks|, [])
    decreases |ticks|
  {
    if |ticks| > 0 {
      assert Step(count, ticks[0].0, ticks[0].1) == (count + 1, []);
      RaisedSkipsThreshold(count + 1, ticks[1..]);
      assert [] + Run(count + 1, ticks[1..]).1 == [];
    }
  }

  /** A successful reconnect is the only way back online, and it resets the counter. */
  lemma OnlineOnlyAfterReconnect(count: nat, tick: Tick, reconnected: bool)
    ensures var (c, evs) := Step(count, tick, reconnected);
      (Online in evs <==> Fails(tick) && count + 1 >= MaxErrors && reconnected) &&
      (Online in evs ==> c == 0 && evs == [Offline, Reconnect, Online])
  {
  }
}

=== FILE: tokens.dfy ===
/** Python's `str.split()` without arguments: the text is cut at runs of whitespace,
    and no token is empty. */
module Tokens {

  /** Python's `str.isspace()` for one character: the ASCII separators and controls
      0x09-0x0D and 0x1C-0x20, and the Unicode spaces and line separators. */
  predicate IsSpace(c: char) {
    (0x09 <= c as int <= 0x0D) || (0x1C <= c as int <= 0x20) || c as int == 0x85 || c as int == 0xA0 ||
    c as int == 0x1680 || (0x2000 <= c as int <= 0x200A) || c as int == 0x2028 || c as int == 0x2029 ||
    c as int == 0x202F || c as int == 0x205F || c as int == 0x3000
  }

  /** A token: non-empty, without whitespace. */
  predicate IsToken(t: string) {
    |t| > 0 && forall i :: 0 <= i < |t| ==> !IsSpace(t[i])
  }

  predicate AllTokens(ts: seq<string>) {
    forall k :: 0 <= k < |ts| ==> IsToken(ts[k])
  }

  /** The longest prefix of `s` without whitespace. */
  function Word(s: string): (w: string)
    ensures |w| <= |s| && w == s[..|w|]
    ensures forall i :: 0 <= i < |w| ==> !IsSpace(w[i])
    ensures |w| < |s| ==> IsSpace(s[|w|])
    decreases |s|
  {
    if |s| == 0 || IsSpace(s[0]) then ""
    else [s[0]] + Word(s[1..])
  }

  /** `s.split()`. */
  function Split(s: string): (ts: seq<string>)
    ensures AllTokens(ts)
    decreases |s|
  {
    if |s| == 0 then []
    else if IsSpace(s[0]) then Split(s[1..])
    else
      var w := Word(s);
      [w] + Split(s[|w|..])
  }

  /** The characters of `s` that are not whitespace, in order. */
  function NonSpace(s: string): (r: string)
    ensures |r| <= |s|
    decreases |s|
  {
    if |s| == 0 then ""
    else (if IsSpace(s[0]) then "" else [s[0]]) + NonSpace(s[1..])
  }

  function Concat(ts: seq<string>): string
    decreases |ts|
  {
    if |ts| == 0 then "" else ts[0] + Concat(ts[1..])
  }

  /** `' '.join(ts)`. */
  function Join(ts: seq<string>): string
    decreases |ts|
  {
    if |ts| == 0 then ""
    else if |ts| == 1 then ts[0]
    else ts[0] + " " + Join(ts[1..])
  }

  lemma {:induction false} NonSpaceAppend(a: string, b: string)
    ensures NonSpace(a + b) == NonSpace(a) + NonSpace(b)
    decreases |a|
  {
    if |a| == 0 {
      assert a + b == b;
    } else {
      assert (a + b)[1..] == a[1..] + b;
      NonSpaceAppend(a[1..], b);
    }
  }

  /** A text without whitespace is its own non-whitespace part. */
  lemma {:induction false} NonSpaceOfWord(w: string)
    requires forall i :: 0 <= i < |w| ==> !IsSpace(w[i])
    ensures NonSpace(w) == w
    decreases |w|
  {
    if |w| > 0 {
      NonSpaceOfWord(w[1..]);
      assert w == [w[0]] + w[1..];
    }
  }

  /** Nothing is lost or reordered: the tokens, put together, are the text without its
      whitespace. */
  lemma {:induction false} SplitKeepsText(s: string)
    ensures Concat(Split(s)) == NonSpace(s)
    decreases |s|
  {
    if |s| > 0 {
      if IsSpace(s[0]) {
        SplitKeepsText(s[1..]);
      } else {
        var w := Word(s);
        SplitKeepsText(s[|w|..]);
        assert s == w + s[|w|..];
        NonSpaceAppend(w, s[|w|..]);
        NonSpaceOfWord(w);
        assert Split(s) == [w] + Split(s[|w|..]);
      }
    }
  }

  /** Whitespace in front does not change the split. */
  lemma {:induction false} SplitSkipsSpace(sp: string, s: string)
    requires forall i :: 0 <= i < |sp| ==> IsSpace(sp[i])
    ensures Split(sp + s) == Split(s)
    decreases |sp|
  {
    if |sp| == 0 {
      assert sp + s == s;
    } else {
      assert (sp + s)[0] == sp[0];
      assert (sp + s)[1..] == sp[1..] + s;
      SplitSkipsSpace(sp[1..], s);
    }
  }

  /** The word of a token followed by whitespace (or nothing) is that token. */
  lemma {:induction false} WordOfToken(t: string, rest: string)
    requires IsToken(t)
    requires |rest| == 0 || IsSpace(rest[0])
    ensures Word(t + rest) == t
    decreases |t|
  {
    if |t| == 1 {
      assert (t + rest)[1..] == rest;
    } else {
      assert (t + rest)[1..] == t[1..] + rest;
      WordOfToken(t[1..], rest);
      assert t == [t[0]] + t[1..];
    }
  }

  /** Joining tokens with single spaces and splitting again gives the tokens back. */
  lemma {:induction false} SplitJoin(ts: seq<string>)
    requires AllTokens(ts)
    ensures Split(Join(ts)) == ts
    decreases |ts|
  {
    if |ts| == 1 {
      var t := ts[0];
      WordOfToken(t, "");
      assert t + "" == t;
      assert Split(t) == [t] + Split(t[|t|..]);
      assert t[|t|..] == "";
    } else if |ts| > 1 {
      var t := ts[0];
      var rest := Join(ts[1..]);
      var s := t + " " + rest;
      assert s == t + (" " + rest);
      WordOfToken(t, " " + rest);
      assert s[|t|..] == " " + rest;
      SplitSkipsSpace(" ", rest);
      SplitJoin(ts[1..]);
      assert Split(s) == [t] + Split(s[|t|..]);
      assert ts == [t] + ts[1..];
    }
  }
}
